=== FILE: README.md ===
# voicemode core, modelled in Dafny

VoiceApp is a push-to-talk dictation tool. A background daemon listens on a
socket for `start` / `stop` / `toggle` requests. While a session is open it
buffers microphone blocks. On stop it encodes the audio as a 16-bit mono WAV
container, sends it to a speech-to-text service with a retry policy, and
pastes the text it gets back. Users can also define substitution rules that
rewrite the transcribed text.

This project models that core as pure functions over immutable data and proves
properties of them:

- `Audio` (`audio.dfy`): the recorder. It holds the session flag, the optional
  block buffer, and the worker thread as a present/absent state. Each
  lock-guarded operation is one atomic step, and traces of steps are run with
  `Run`.
- `Wav` (`wav.dfy`): `float_to_wav_bytes` over exact real samples. It clips,
  scales by 32767, truncates toward zero, and writes the canonical 44-byte
  RIFF/WAVE header. `ParseWav` is an independent reader of that layout.
- `Transcribe` (`transcribe.dfy`): the retry loop. The network client is an oracle
  sequence of attempt outcomes, and sleeping is a list of requested delays.
- `Settings` (`settings.dfy`): where the config dir is on each platform, and
  the API-key precedence. The environment and the readable files are maps.
- `Substitutions` (`substitutions.dfy`): the rule-line grammar, rule-file
  discovery order, and ordered case-insensitive literal replacement.
- `Daemon` (`daemon.dfy`): the `serve` loop. It covers `_start`,
  `_stop_and_transcribe`, and the request dispatch, as a step from (state,
  request, transcription outcome) to (reply, state, shutdown flag, effects).
- `Launcher` (`launcher.dfy`): the argument vector of the background daemon,
  plus a reader that recovers the options from it.
- `Platform`, `Text` and `Wrappers` are support modules:
  - `Platform`: the paste keystroke.
  - `Text`: Python's `strip`, `lower`, `find`, `re.split` on a character
    class and `str(int)`, each over `seq<char>`, plus a reader of what
    `str(int)` prints.
  - `Wrappers`: `Option` and `Result`.

## Model

| member | source | states |
|---|---|---|
| Platform.PasteKeystroke | voiceapp/utils.py:11-21 | The paste chord is two keys ending in "v"; the modifier is "command" exactly when the system is Darwin and "ctrl" otherwise. |
| Audio.ServeConfig | voiceapp/audio.py:12-18 | The daemon's capture config keeps the record's defaults (mono, float32, 1024-frame blocks) and takes the requested rate and device. |
| Audio.StreamArgs | voiceapp/audio.py:52-60 | The stream is opened with the config's channels, rate, dtype and block size, and a device argument exactly when a device is configured. |
| Audio.NewRecorder | voiceapp/audio.py:28-36 | A new recorder has no worker, no active session and no buffer. |
| Audio.Start | voiceapp/audio.py:70-75 | Starting while a live worker exists changes nothing. Otherwise the stop request is cleared and a live worker is recorded. The session is untouched in both cases. |
| Audio.Stop | voiceapp/audio.py:77-81 | Stopping always leaves no worker and a stop request, even if nothing was started. |
| Audio.Callback | voiceapp/audio.py:38-47 | A block is appended only while the session is active and a buffer exists; otherwise the recorder is unchanged. |
| Audio.LockedAppend | voiceapp/audio.py:44-46 | Under the lock, a block is appended after the buffered ones when a buffer exists, and the recorder is unchanged when none does. The flag, worker and config are never touched. |
| Audio.CallbackIgnoresStatus | voiceapp/audio.py:39-41 | The driver's status flags never change whether a block is accepted. |
| Audio.BeginSession | voiceapp/audio.py:83-87 | A session starts with a fresh empty buffer and the flag set, discarding anything buffered before. |
| Audio.EndSession | voiceapp/audio.py:89-94 | Ending clears the flag, leaves no buffer, and returns the buffered blocks in arrival order, or nothing if there was no buffer. |
| Audio.StepPreservesValid | voiceapp/audio.py:83-94 | Every atomic step keeps the session flag set only while a buffer exists. |
| Audio.OpenSessionCollects | voiceapp/audio.py:42-46 | While a session is open, every delivered block, late or not, is appended in order and nothing is returned. |
| Audio.ClosedSessionDrops | voiceapp/audio.py:42-46 | Outside a session, callbacks leave the recorder exactly as it was. |
| Audio.SessionIsItsBlocks | voiceapp/audio.py:83-94 | Begin, callbacks, end: the end returns exactly the blocks delivered in between and leaves the recorder idle, whatever was buffered before. |
| Audio.AfterEndNothingCollected | voiceapp/audio.py:89-94 | After an end, blocks delivered before the next begin are in no session: a second end returns nothing. |
| Audio.NeverDuplicated | voiceapp/audio.py:38-94 | Over any trace, the blocks returned plus those still buffered form a sub-multiset of those buffered at the start plus those delivered, so no block is ever duplicated. |
| Wav.Clip | voiceapp/utils.py:40 | The clipped sample lies in [-1, 1], equals the input inside that range, and saturates outside it. |
| Wav.TruncateTowardZero | voiceapp/utils.py:41 | The integer conversion truncates toward zero: below a non-negative input by less than 1, above a negative input by less than 1. |
| Wav.Quantize | voiceapp/utils.py:40-41 | Every PCM value lies in [-32767, 32767], keeps the sample's sign, and saturates at ±32767 for samples beyond ±1. It is 32767·clip(x) truncated toward zero: within 1 below it when that is non-negative, within 1 above it when negative. |
| Wav.Pcm | voiceapp/utils.py:40-41 | There is one PCM value per sample, in order, each the quantization of its sample. |
| Wav.FloatToWavBytes | voiceapp/utils.py:24-49 | The output is empty exactly when there are no samples. The writer fails exactly when there are samples and the rate is not positive or a size field overflows 32 bits. Otherwise the output is 44 + 2n bytes. |
| Wav.EncodeThenParse | voiceapp/utils.py:43-48 | Read back, the output is PCM format, 1 channel, the requested rate, byte rate 2·rate, block align 2, 16 bits, holding the quantized concatenated samples. |
| Wav.ParseHeaderThenData | voiceapp/utils.py:44-48 | A canonical header followed by its data parses to the header's fields and the decoded data. |
| Wav.DecodePcmBytes | voiceapp/utils.py:48 | Little-endian 16-bit two's-complement encoding of in-range values decodes back to the same values. |
| Wav.FlattenAppend | voiceapp/utils.py:34 | Concatenation keeps block order: the samples of later blocks follow those of earlier ones. |
| Transcribe.NewTranscriber | voiceapp/transcribe.py:12-21 | A negative retry count is clamped to 0, a non-negative one is kept, and the model is kept. |
| Transcribe.DefaultTranscriber | voiceapp/transcribe.py:8-21 | With the constructor's defaults, the model is "gpt-4o-transcribe" and two retries are allowed. |
| Transcribe.ResponseText | voiceapp/transcribe.py:39-40 | A missing text gives "". Otherwise the result is the text with only its leading and trailing whitespace removed: it is stripped, it occurs in the text with nothing but whitespace around it, and it is empty exactly when the text is all whitespace. |
| Text.TrimStrips | voiceapp/transcribe.py:40 | `strip` removes only surrounding whitespace: its result occurs in the input with nothing but whitespace before and after it. |
| Text.StripUnique | voiceapp/transcribe.py:40 | Any stripped string that occurs in the input surrounded only by whitespace, and is empty exactly when the input is all whitespace, is the input's `strip`: the contract pins the function down. |
| Transcribe.TranscribeWavBytes | voiceapp/transcribe.py:23-48 | Empty audio returns "" with no attempt and no sleep. Otherwise: 1 to max_retries+1 attempts; every attempt but the last failed; the first answer is returned stripped; the sleeps are 1, 2, 4, … seconds, one after each non-final failure; and an error is raised exactly when all max_retries+1 attempts failed, re-raising the last failure. |
| Transcribe.ScheduleTotal | voiceapp/transcribe.py:31-45 | The total wait before attempt n is 2^n − 1 seconds. |
| Settings.ConfigDir | voiceapp/settings.py:13-27 | The config dir is APPDATA/VoiceApp or home/AppData/Roaming/VoiceApp on Windows, and home/Library/Application Support/VoiceApp on Darwin. Elsewhere it is XDG_CONFIG_HOME/voiceapp or home/.config/voiceapp. An environment base is used only when non-empty. |
| Settings.ConfigDirReadsOneVariable | voiceapp/settings.py:13-27 | The config dir depends on the environment only through APPDATA (Windows) or XDG_CONFIG_HOME (other systems other than Darwin). |
| Settings.ConfigDirEndsInAppName | voiceapp/settings.py:13-27 | The config dir always ends in the app name: "VoiceApp" on Windows and Darwin, lower-cased elsewhere. |
| Settings.ConfigFile | voiceapp/settings.py:30-31 | The config file is the config dir with "config.json" appended. |
| Settings.ReadKeyFile | voiceapp/settings.py:55-62 | A key file gives a key exactly when it is readable and not all whitespace, and the key is its stripped content. |
| Settings.ResolveOpenAIKey | voiceapp/settings.py:65-90 | Any resolved key is non-empty, and a non-empty environment variable always wins. |
| Settings.ResolveIsFirstCandidate | voiceapp/settings.py:65-90 | The key is the first present candidate, in this order: the environment variable, the settings value, the three working-directory files, then the three config-dir files. There is no key exactly when none is present. |
| Settings.FirstKeyFile | voiceapp/settings.py:76-88 | Scanning the key-file names in a directory gives the first present answer among the files' answers in name order, and any key found is non-empty. |
| Substitutions.SplitSources | voiceapp/substitutions.py:27-30 | Every source produced is non-empty, stripped, and free of '\|' and ','. |
| Substitutions.SplitSourcesOfJoin | voiceapp/substitutions.py:27-30 | Splitting sources joined by '\|' or ',' gives back exactly those sources. |
| Substitutions.SplitSourcesOfInterleave | voiceapp/substitutions.py:27-30 | For any pieces free of '\|' and ',' joined by any mix of those separators, the sources are the pieces stripped, with the ones that strip to nothing dropped, in order. |
| Text.SplitRebuilds | voiceapp/substitutions.py:29 | Splitting on a character class gives one more piece than there are separators in the string, and interleaving the pieces with those separators rebuilds the string. |
| Text.SplitInterleave | voiceapp/substitutions.py:29 | Pieces free of the class, interleaved with any separators from it, split back into exactly those pieces. |
| Substitutions.ParseLine | voiceapp/substitutions.py:33-56 | A parsed rule has a non-empty stripped target and at least one valid source. It comes only from a non-blank, non-comment line, and a line with no separator gives no rule. |
| Substitutions.FormatThenParse | voiceapp/substitutions.py:33-56 | For each of the forms `target <- sources`, `sources -> target` and `sources = target`, parsing the written line of an unambiguous rule gives back that rule. This covers the side each form puts the target on. |
| Substitutions.TryFirstPresent | voiceapp/substitutions.py:40-42 | The first separator, in the order "<-", "->", "=", that occurs in the line decides the split, at its first occurrence. |
| Substitutions.SplitRule | voiceapp/substitutions.py:42-55 | A rule from a split has a non-empty stripped target and at least one source, each non-empty, stripped and free of '\|' and ','. |
| Substitutions.SplitRuleSides | voiceapp/substitutions.py:42-55 | When both stripped sides are non-empty, a split that yields a rule takes its target from the left side with "<-" and from the right side otherwise; that the sources come from the other side is shown by Substitutions.FormatThenParse. There is no rule when no source survives. |
| Substitutions.CandidatePaths | voiceapp/substitutions.py:17-24 | The candidate files are the two names in the working directory, then the same two names in the config dir. |
| Substitutions.RulesOfLines | voiceapp/substitutions.py:63-66 | Every rule is what some line of the file parses to, and every line that parses contributes its rule. |
| Substitutions.RulesOfLinesAppend | voiceapp/substitutions.py:63-66 | Rules keep line order: the rules of consecutive runs of lines follow one another. |
| Substitutions.LoadRules | voiceapp/substitutions.py:59-70 | A missing file gives no rules. A readable file gives exactly the rules of its lines: each one parsed from a line, and none of the parsing lines left out. |
| Substitutions.LoadSubstitutions | voiceapp/substitutions.py:73-82 | Every candidate path is read exactly once, in first-occurrence order. The rules are the concatenation of each read file's rules, and a missing file contributes none. |
| Substitutions.LoadFromPaths | voiceapp/substitutions.py:76-82 | The loop over paths with a seen-set reads exactly the de-duplicated path list and concatenates their rules. |
| Substitutions.ReplaceAll | voiceapp/substitutions.py:99-100 | The result is as long as the text plus, for each occurrence replaced, the difference in length between the target and the source. |
| Substitutions.ReplaceAllReplacesOccurrences | voiceapp/substitutions.py:96-100 | The text splits into gaps and case-insensitive occurrences of the source, and no gap contains an occurrence. Matching is leftmost-first: no occurrence starts inside a gap, even one overlapping the next match. The result is the same gaps with the target in place of each occurrence. |
| Substitutions.OccurrencesUnique | voiceapp/substitutions.py:99-100 | That split is the only one: any split of the text into gaps and occurrences with no occurrence starting inside a gap is the one the replacement uses. |
| Substitutions.ReplaceAllNoMatch | voiceapp/substitutions.py:99-100 | Text without a case-insensitive occurrence of the source is unchanged. |
| Substitutions.ReplaceAllIgnoresPatternCase | voiceapp/substitutions.py:99 | Two sources that differ only in letter case replace identically. |
| Substitutions.ApplyRule | voiceapp/substitutions.py:93-100 | A rule with an empty target, or with only empty sources, leaves the text unchanged. A rule with a target applies its sources to the text. |
| Substitutions.ApplySources | voiceapp/substitutions.py:96-100 | When every source is empty, the text comes back unchanged. Otherwise the first source, if non-empty, has its occurrences replaced by the target, and the remaining sources apply to that result. |
| Substitutions.ApplySourcesAppend | voiceapp/substitutions.py:96-100 | Sources apply in order: the later sources of a rule see the text the earlier ones produced. |
| Substitutions.ApplyRules | voiceapp/substitutions.py:93-100 | When every rule's target is empty, the text comes back unchanged. A single rule is applied as that rule. |
| Substitutions.ApplyRulesAppend | voiceapp/substitutions.py:93-100 | Applying a run of rules then another run equals applying them all in sequence. |
| Substitutions.ApplyOneRule | voiceapp/substitutions.py:85-100 | On non-empty text, a list holding one rule applies exactly that rule. A rule with a target applies every one of its sources in turn. With the append lemmas, this fixes the result of any rule list. |
| Substitutions.ApplySingleRule | voiceapp/substitutions.py:85-100 | On non-empty text, one rule with one non-empty source and a non-empty target rewrites the text exactly as replacing every case-insensitive occurrence of the source does. |
| Substitutions.ApplyOneRuleReplaces | voiceapp/substitutions.py:85-100 | For such a rule, take any split of the text into gaps and case-insensitive occurrences of the source in which no occurrence starts inside a gap. The result is those gaps with the target in place of each occurrence. |
| Substitutions.ApplySubstitutions | voiceapp/substitutions.py:85-91 | Empty text, or an empty rule list, is returned unchanged. |
| Substitutions.ApplyInOrder | voiceapp/substitutions.py:92-101 | Applying rules a then b equals applying b to the result of applying a: later rules see earlier results. |
| Substitutions.ApplyRulesNoMatch | voiceapp/substitutions.py:92-101 | Text in which no source of any rule occurs comes back unchanged. |
| Daemon.Initial | voiceapp/cli.py:832-835 | The daemon starts not listening, with a live worker, no session, and the capture config built from its rate and device. |
| Daemon.StartListening | voiceapp/cli.py:882-889 | When already listening: "already", with no change and no effect. Otherwise: "started", listening, a fresh empty session on the same worker, the start cue unless sounds are off, and the listening notification. |
| Daemon.StopAndTranscribe | voiceapp/cli.py:891-917 | When not listening: "not_active", with no change. From listening it always ends not listening with the session closed. On every returning branch the status is one of no_audio/transcribed/empty/error and the completion notification fires exactly once. Text is pasted exactly on "transcribed", and the pasted text is the transcript. |
| Daemon.StopOutcome | voiceapp/cli.py:897-917 | "no_audio" exactly when the session captured no samples. Any audio sent to the transcriber is the encoding of the session's blocks. "transcribed" exactly on non-empty text, and "error" exactly when the transcriber raised. |
| Daemon.Action | voiceapp/cli.py:958-965 | Undecodable input acts as an empty command. A decoded non-object fails with an AttributeError on `get`. Any action name is already lower case. |
| Daemon.ActionOfCmd | voiceapp/cli.py:965 | A command name is matched case-insensitively. |
| Daemon.StartReply | voiceapp/cli.py:980-986 | A start inside the dispatch has the state and effects of `_start`, replies ok with its status and listening true, and never shuts down. |
| Daemon.StopReply | voiceapp/cli.py:987-993 | A stop inside the dispatch has the state and effects of `_stop_and_transcribe` and ends not listening. It replies with the status and listening false, or, when an exception escapes, with an error reply that also cancels a requested shutdown. |
| Daemon.Handle | voiceapp/cli.py:966-1008 | Error replies other than an escaping encoder error leave the state unchanged with no effect. Every reported `listening` is the post-operation flag. A shutdown reply is ok and says not listening. |
| Daemon.HandleCommand | voiceapp/cli.py:967-1006 | ping/status report listening or idle without change. toggle flips the flag: while listening it is exactly a stop, and while idle exactly a start replying "started". start is exactly a start, ending listening with "already" or "started". stop is exactly a stop, ending idle ("not_active" when idle). Shutdown from idle replies "stopped", and from listening is exactly a stop that shuts down unless the stop threw. Unknown names reply unknown_command. |
| Daemon.HandlePreservesInv | voiceapp/cli.py:882-1008 | Every request keeps the listening flag equal to the recorder's session flag and to the buffer's presence. |
| Daemon.Serve | voiceapp/cli.py:945-1014 | When the loop does not exit, every connection gets exactly one reply. When it exits, there are at least one and at most as many replies as connections. |
| Daemon.ShutdownEndsLoop | voiceapp/cli.py:1004-1014 | A connection whose handling requests shutdown gets its reply and ends the loop: nothing after it is read or answered, and its state and effects are the final ones. |
| Daemon.ServeAppend | voiceapp/cli.py:945-1014 | Serving runs in sequence. Once the loop has exited, later inputs change nothing and get no reply. Otherwise serving goes on from the state reached, with its replies and effects after those so far. |
| Daemon.ServePreservesInv | voiceapp/cli.py:945-1014 | Across any interleaving of connections and driver blocks, the flag and the session stay in agreement. |
| Daemon.ExitEndsIdle | voiceapp/cli.py:994-1014 | When the accept loop exits, the daemon is not listening and the last reply reported listening false. |
| Daemon.CapturesWhileListening | voiceapp/cli.py:882-897 | While listening, driver blocks are buffered in order, with no reply and no effect. |
| Daemon.SessionSendsItsAudio | voiceapp/cli.py:882-917 | For start, driver blocks, then stop: the daemon ends idle after two replies. Any audio sent is the encoding of exactly those blocks, and it is sent whenever they hold samples and encode. |
| Launcher.BackgroundArgv | voiceapp/cli.py:739-756 | The command runs `-m voiceapp serve` and always carries --model and --rate. --device and its number are present exactly when a device is given, and it ends in --no-sound exactly when sounds are off. |
| Launcher.ArgvRoundTrip | voiceapp/cli.py:743-756 | Reading the options back from the command gives exactly the model, rate, device and sound setting it was built from. |

## Left out

- Threads, `_stream_loop`, the sounddevice stream, and the join timeout in `stop`. Each lock-guarded recorder operation is one atomic step instead. A callback whose flag check ran before a session boundary is the `LateAppend` event.
- `_last_frame_time` and every other clock read: no modelled operation depends on them.
- Socket plumbing (`accept`, `recv`, `sendall`), JSON encoding and decoding, `_ensure_server` polling, and `Popen`. A request is a decoded JSON value or "undecodable", a reply is a record, and only the background argv is built.
- The key check at the start of `serve` and the export of the key into the environment. Key resolution itself is `Settings.ResolveOpenAIKey`.
- `_paste_text`, `_notify_linux` and its notification ids, colour printing, `_detect_needs_shift_paste_linux`, hotkeys, and argparse `main`. These are OS and UI glue; paste and notifications are recorded as effects, and `_paste_text` is taken as not raising, since it catches its own failures.
- All of `voiceapp/sounds.py`. The start and stop cues are recorded as effects, and suppressed when sounds are off.
- numpy float32 rounding. Samples are exact reals, so the model's PCM values are those of exact arithmetic.
- The exact bytes of Python's `wave` writer. The model writes the canonical 44-byte RIFF/WAVE PCM header. Writer errors are the two kinds it can raise: a frame rate of zero or less, and a size field that does not fit in 32 bits.
- Exception message texts. An error reply carries the exception's kind, e.g. a missing attribute of a named type.
- The OpenAI SDK call and real sleeping. `Transcribe.TranscribeWavBytes` takes an oracle of attempt outcomes, and the daemon takes the transcription outcome of a stop as a parameter.
- Transcribe.TranscribeWavBytes: requires the outcome oracle to cover max_retries+1 attempts. That is the most the loop can make, so this only sizes the oracle.
- Filesystem access. Readable files are a map from path to content, and a missing, non-regular or unreadable file is absent. Paths are component lists, without `Path` normalisation.
- Unicode whitespace and case folding. `strip` uses Python's ASCII whitespace set, and `lower` folds ASCII letters only.
- `re.sub` escape processing in replacement targets. Targets are inserted literally, as if they contained no backslashes.
- `int(str)` in general. Only the output of `str(int)` is read back, so a leading '+', surrounding whitespace, '_' separators and non-ASCII digits are not accepted.
- `str.splitlines` treating "\r\n" as one break. The model breaks at each line-break character, and the extra empty line this creates yields no rule.
- `load_settings` and `save_settings`. The settings value is a map given to the key lookup.

=== FILE: audio.dfy ===
/**
 * The capture engine's recorder: stream configuration, the background worker
 * as an abstract present/absent state, and the session buffer shared between
 * the driver callback and the control thread.
 *
 * Every operation that runs under the frames lock is one atomic step. The
 * callback reads the session flag before it takes the lock, so a callback may
 * have seen the flag set just before a session boundary and reach the lock
 * only afterwards: that second half alone is the `LateAppend` event.
 */
module Audio {
  import opened Wrappers

  /** One block of samples as the driver delivers it, flattened row-major. */
  type Block = seq<real>

  /** Capture parameters (the `AudioConfig` record). */
  datatype Config = Config(channels: int, sampleRate: int, dtype: string, blockSize: int, device: Option<int>)

  /** The record's defaults: mono, 16 kHz, float32, 1024-frame blocks, default device. */
  const DefaultConfig := Config(1, 16000, "float32", 1024, None)

  /** The configuration the daemon builds: defaults with its rate and device. */
  function ServeConfig(rate: int, device: Option<int>): (cfg: Config)
    ensures cfg.sampleRate == rate && cfg.device == device
    ensures cfg.channels == 1 && cfg.dtype == "float32" && cfg.blockSize == 1024
  {
    DefaultConfig.(sampleRate := rate, device := device)
  }

  /** A keyword argument of the input-stream constructor. */
  datatype StreamArg = IntArg(i: int) | StrArg(s: string)

  /**
   * The keyword arguments the worker opens the input stream with (the
   * callback argument, always the recorder's own, is not represented).
   */
  function StreamArgs(cfg: Config): (args: map<string, StreamArg>)
    ensures "channels" in args && args["channels"] == IntArg(cfg.channels)
    ensures "samplerate" in args && args["samplerate"] == IntArg(cfg.sampleRate)
    ensures "dtype" in args && args["dtype"] == StrArg(cfg.dtype)
    ensures "blocksize" in args && args["blocksize"] == IntArg(cfg.blockSize)
    ensures "device" in args <==> cfg.device.Some?
    ensures cfg.device.Some? ==> args["device"] == IntArg(cfg.device.value)
    ensures args.Keys <= {"channels", "samplerate", "dtype", "blocksize", "device"}
  {
    var base := map["channels" := IntArg(cfg.channels), "samplerate" := IntArg(cfg.sampleRate),
                     "dtype" := StrArg(cfg.dtype), "blocksize" := IntArg(cfg.blockSize)];
    if cfg.device.Some? then base["device" := IntArg(cfg.device.value)] else base
  }

  /** The background worker thread as recorded by the recorder. */
  datatype Worker = NoWorker | Running(alive: bool)

  datatype Recorder = Recorder(
    cfg: Config,
    worker: Worker,
    stopRequested: bool,
    active: bool,                    // the session-active event
    frames: Option<seq<Block>>)      // the session buffer; None outside a session

  /** A fresh recorder: no worker, no session, no buffer. */
  function NewRecorder(cfg: Config): (r: Recorder)
    ensures r.cfg == cfg && r.worker == NoWorker
    ensures !r.active && r.frames == None
  {
    Recorder(cfg, NoWorker, false, false, None)
  }

  /** The session flag is only ever set while a buffer exists. */
  predicate Valid(r: Recorder) {
    r.active ==> r.frames.Some?
  }

  /** `start`: a no-op while a live worker is recorded; otherwise clears the stop request and records a new worker. */
  function Start(r: Recorder): (r': Recorder)
    ensures r.worker == Running(true) ==> r' == r
    ensures r.worker != Running(true) ==> r'.worker == Running(true) && !r'.stopRequested
    ensures r'.active == r.active && r'.frames == r.frames && r'.cfg == r.cfg
  {
    if r.worker.Running? && r.worker.alive then r
    else r.(stopRequested := false, worker := Running(true))
  }

  /** `stop`: requests the worker to stop and forgets it, whether or not one was started. */
  function Stop(r: Recorder): (r': Recorder)
    ensures r'.worker == NoWorker && r'.stopRequested
    ensures r'.active == r.active && r'.frames == r.frames && r'.cfg == r.cfg
  {
    r.(stopRequested := true, worker := NoWorker)
  }

  /** The locked half of the callback: append a copy of the block if a buffer exists. */
  function LockedAppend(r: Recorder, block: Block): (r': Recorder)
    ensures r.frames.Some? ==> r'.frames == Some(r.frames.value + [block])
    ensures r.frames.None? ==> r' == r
    ensures r'.active == r.active && r'.worker == r.worker && r'.cfg == r.cfg
  {
    match r.frames
    case Some(fs) => r.(frames := Some(fs + [block]))
    case None => r
  }

  /**
   * The driver callback. `flagged` stands for the driver's status flags
   * (overruns and underruns), which never stop a block from being accepted.
   */
  function Callback(r: Recorder, block: Block, flagged: bool): (r': Recorder)
    ensures r.active && r.frames.Some? ==> r'.frames == Some(r.frames.value + [block])
    ensures !(r.active && r.frames.Some?) ==> r' == r
    ensures r'.active == r.active && r'.worker == r.worker && r'.cfg == r.cfg
  {
    if !r.active then r else LockedAppend(r, block)
  }

  /** `begin_session`: a fresh empty buffer, then the session flag. */
  function BeginSession(r: Recorder): (r': Recorder)
    ensures r'.active && r'.frames == Some([])
    ensures r'.worker == r.worker && r'.cfg == r.cfg && r'.stopRequested == r.stopRequested
  {
    r.(frames := Some([]), active := true)
  }

  /** `end_session`: clear the flag, move the buffered blocks out, leave no buffer. */
  function EndSession(r: Recorder): (res: (Recorder, seq<Block>))
    ensures !res.0.active && res.0.frames == None
    ensures r.frames.Some? ==> res.1 == r.frames.value
    ensures r.frames.None? ==> res.1 == []
    ensures res.0.worker == r.worker && res.0.cfg == r.cfg && res.0.stopRequested == r.stopRequested
  {
    (r.(active := false, frames := None), r.frames.GetOr([]))
  }

  // ---------------------------------------------------------------------------
  // Traces of atomic steps
  // ---------------------------------------------------------------------------

  datatype Event =
    | Begin
    | End
    | Deliver(block: Block, flagged: bool)   // a whole callback
    | LateAppend(block: Block)               // a callback whose flag check preceded a boundary

  /** The blocks handed to the recorder by the callbacks of a trace. */
  function Delivered(evs: seq<Event>): seq<Block> {
    if |evs| == 0 then []
    else
      match evs[0]
      case Deliver(b, _) => [b] + Delivered(evs[1..])
      case LateAppend(b) => [b] + Delivered(evs[1..])
      case _ => Delivered(evs[1..])
  }

  /** No session boundary in the trace: only callbacks. */
  predicate Quiet(evs: seq<Event>) {
    forall i | 0 <= i < |evs| :: evs[i].Deliver? || evs[i].LateAppend?
  }

  /** One atomic step; an `End` also yields the blocks it moved out. */
  function Step(r: Recorder, e: Event): (Recorder, seq<seq<Block>>) {
    match e
    case Begin => (BeginSession(r), [])
    case End => var (r', bs) := EndSession(r); (r', [bs])
    case Deliver(b, f) => (Callback(r, b, f), [])
    case LateAppend(b) => (LockedAppend(r, b), [])
  }

  /** The recorder after a trace, and what each `End` of the trace returned, in order. */
  function Run(r: Recorder, evs: seq<Event>): (Recorder, seq<seq<Block>>)
    decreases |evs|
  {
    if |evs| == 0 then (r, [])
    else
      var first := Step(r, evs[0]);
      var rest := Run(first.0, evs[1..]);
      (rest.0, first.1 + rest.1)
  }

  lemma RunSingle(r: Recorder, e: Event)
    ensures Run(r, [e]) == Step(r, e)
  {
    assert [e][1..] == [];
    assert Step(r, e).1 + [] == Step(r, e).1;
  }

  function Concat(outs: seq<seq<Block>>): seq<Block> {
    if |outs| == 0 then [] else outs[0] + Concat(outs[1..])
  }

  /** Every atomic step keeps the session flag within the lifetime of a buffer. */
  lemma StepPreservesValid(r: Recorder, e: Event)
    requires Valid(r)
    ensures Valid(Step(r, e).0)
  {
  }

  /** The driver's status flags never affect whether a block is accepted. */
  lemma CallbackIgnoresStatus(r: Recorder, block: Block)
    ensures Callback(r, block, true) == Callback(r, block, false)
  {
  }

  /** Running a trace in two pieces is running it whole. */
  lemma {:induction false} RunSplit(r: Recorder, a: seq<Event>, b: seq<Event>)
    ensures Run(r, a + b) == (Run(Run(r, a).0, b).0, Run(r, a).1 + Run(Run(r, a).0, b).1)
    decreases |a|
  {
    if |a| == 0 {
      assert a + b == b;
      assert [] + Run(r, b).1 == Run(r, b).1;
    } else {
      assert (a + b)[0] == a[0];
      assert (a + b)[1..] == a[1..] + b;
      var (r1, o1) := Step(r, a[0]);
      RunSplit(r1, a[1..], b);
      var (ra, oa) := Run(r1, a[1..]);
      var (rb, ob) := Run(ra, b);
      assert Run(r, a) == (ra, o1 + oa);
      assert Run(r, a + b) == (rb, o1 + (oa + ob));
      assert o1 + (oa + ob) == (o1 + oa) + ob;
    }
  }

  /** While a session is open, every callback's block is appended, in order. */
  lemma {:induction false} OpenSessionCollects(r: Recorder, mid: seq<Event>)
    requires r.active && r.frames.Some?
    requires Quiet(mid)
    ensures Run(r, mid).0 == r.(frames := Some(r.frames.value + Delivered(mid)))
    ensures Run(r, mid).1 == []
    decreases |mid|
  {
    if |mid| == 0 {
      assert r.frames.value + [] == r.frames.value;
    } else {
      var r1 := Step(r, mid[0]).0;
      assert r1 == r.(frames := Some(r.frames.value + [mid[0].block]));
      assert Quiet(mid[1..]);
      OpenSessionCollects(r1, mid[1..]);
      assert r.frames.value + [mid[0].block] + Delivered(mid[1..])
          == r.frames.value + Delivered(mid);
    }
  }

  /** Outside a session, callbacks (late or not) change nothing. */
  lemma {:induction false} ClosedSessionDrops(r: Recorder, mid: seq<Event>)
    requires !r.active && r.frames.None?
    requires Quiet(mid)
    ensures Run(r, mid) == (r, [])
    decreases |mid|
  {
    if |mid| > 0 {
      assert Step(r, mid[0]) == (r, []);
      assert Quiet(mid[1..]);
      ClosedSessionDrops(r, mid[1..]);
      assert Step(r, mid[0]).1 + Run(r, mid[1..]).1 == [];
      assert Run(r, mid) == (Run(r, mid[1..]).0, Step(r, mid[0]).1 + Run(r, mid[1..]).1);
    }
  }

  /**
   * A session returns exactly the blocks delivered between its begin and its
   * end, whatever was buffered before, and leaves the recorder idle.
   */
  lemma SessionIsItsBlocks(r: Recorder, mid: seq<Event>)
    requires Quiet(mid)
    ensures Run(r, [Begin] + mid + [End]).1 == [Delivered(mid)]
    ensures !Run(r, [Begin] + mid + [End]).0.active
    ensures Run(r, [Begin] + mid + [End]).0.frames == None
  {
    var r1 := BeginSession(r);
    RunSplit(r, [Begin] + mid, [End]);
    RunSplit(r, [Begin], mid);
    RunSingle(r, Begin);
    RunSingle(BeginSession(r).(frames := Some([] + Delivered(mid))), End);
    OpenSessionCollects(r1, mid);
    var r2 := r1.(frames := Some([] + Delivered(mid)));
    assert Run(r, [Begin] + mid) == (r2, []);
    assert [] + Delivered(mid) == Delivered(mid);
    assert Run(r2, [End]) == (EndSession(r2).0, [Delivered(mid)]);
  }

  /** Blocks delivered after a session has ended belong to no session. */
  lemma AfterEndNothingCollected(r: Recorder, mid: seq<Event>)
    requires Quiet(mid)
    ensures Run(r, [End] + mid + [End]).1 == [r.frames.GetOr([]), []]
  {
    var r1 := EndSession(r).0;
    RunSplit(r, [End] + mid, [End]);
    RunSplit(r, [End], mid);
    RunSingle(r, End);
    RunSingle(r1, End);
    ClosedSessionDrops(r1, mid);
    assert Run(r, [End] + mid) == (r1, [r.frames.GetOr([])]);
    assert Run(r1, [End]) == (r1, [[]]);
  }

  /** What one step returns or keeps buffered was buffered before it or is the block it delivers. */
  lemma StepNeverDuplicates(r: Recorder, e: Event)
    ensures multiset(Concat(Step(r, e).1)) + multiset(Step(r, e).0.frames.GetOr([]))
         <= multiset(r.frames.GetOr([])) + multiset(Delivered([e]))
  {
    assert [e][1..] == [];
    match e
    case Begin =>
      assert Concat(Step(r, e).1) == [];
    case End =>
      assert Concat(Step(r, e).1) == r.frames.GetOr([]) + [];
    case Deliver(b, f) =>
      assert Concat(Step(r, e).1) == [];
      assert Delivered([e]) == [b];
    case LateAppend(b) =>
      assert Concat(Step(r, e).1) == [];
      assert Delivered([e]) == [b];
  }

  /** Sub-multiset bounds compose along a trace. */
  lemma SubMultisetChain(A: multiset<Block>, C: multiset<Block>, F0: multiset<Block>, F1: multiset<Block>,
                         F2: multiset<Block>, D1: multiset<Block>, D: multiset<Block>)
    requires C + F2 <= F1 + D
    requires A + F1 <= F0 + D1
    ensures (A + C) + F2 <= (F0 + D1) + D
  {
    forall x | true
      ensures ((A + C) + F2)[x] <= ((F0 + D1) + D)[x]
    {
      assert (C + F2)[x] <= (F1 + D)[x];
      assert (A + F1)[x] <= (F0 + D1)[x];
    }
  }

  lemma DeliveredCons(evs: seq<Event>)
    requires |evs| > 0
    ensures Delivered(evs) == Delivered([evs[0]]) + Delivered(evs[1..])
  {
    assert [evs[0]][1..] == [];
  }

  /**
   * No block is ever duplicated: everything the ends of a trace returned,
   * plus what is still buffered, was either buffered at the start or
   * delivered during the trace.
   */
  lemma {:induction false} NeverDuplicated(r: Recorder, evs: seq<Event>)
    ensures multiset(Concat(Run(r, evs).1)) + multiset(Run(r, evs).0.frames.GetOr([]))
         <= multiset(r.frames.GetOr([])) + multiset(Delivered(evs))
    decreases |evs|
  {
    if |evs| > 0 {
      var (r1, out1) := Step(r, evs[0]);
      var (r2, out2) := Run(r1, evs[1..]);
      NeverDuplicated(r1, evs[1..]);
      StepNeverDuplicates(r, evs[0]);
      ConcatAppend(out1, out2);
      DeliveredCons(evs);
      assert Run(r, evs) == (r2, out1 + out2);
      var A, F0, F1, F2 := multiset(Concat(out1)), multiset(r.frames.GetOr([])),
                           multiset(r1.frames.GetOr([])), multiset(r2.frames.GetOr([]));
      var C, D1, D := multiset(Concat(out2)), multiset(Delivered([evs[0]])), multiset(Delivered(evs[1..]));
      SubMultisetChain(A, C, F0, F1, F2, D1, D);
    }
  }

  lemma {:induction false} ConcatAppend(a: seq<seq<Block>>, b: seq<seq<Block>>)
    ensures Concat(a + b) == Concat(a) + Concat(b)
    decreases |a|
  {
    if |a| == 0 {
      assert a + b == b;
    } else {
      assert (a + b)[1..] == a[1..] + b;
      ConcatAppend(a[1..], b);
    }
  }
}

=== FILE: daemon.dfy ===
/**
 * The background daemon (`serve`): a listening flag, the recorder, and one
 * request per connection. Each request is handled as one step from the
 * current state to a reply, a new state, a shutdown flag and the side
 * effects performed (sounds, notifications, the audio handed to the
 * transcriber, the paste). The transcriber's answer for a stop is an oracle.
 */
module Daemon {
  import opened Wrappers
  import Text
  import Audio
  import Wav
  import Transcribe

  /** The daemon's parameters that affect a session. */
  datatype Config = Config(rate: int, noSound: bool)

  /** The listening flag and the recorder it drives. */
  datatype State = State(listening: bool, recorder: Audio.Recorder)

  /** The flag and the recorder's session agree. */
  predicate Inv(st: State) {
    st.recorder.active == st.listening && st.recorder.frames.Some? == st.listening
  }

  /** The state after start-up: not listening, a live worker, no session. */
  function Initial(rate: int, device: Option<int>): (st: State)
    ensures Inv(st) && !st.listening
    ensures st.recorder.worker == Audio.Running(true)
    ensures st.recorder.cfg == Audio.ServeConfig(rate, device)
  {
    State(false, Audio.Start(Audio.NewRecorder(Audio.ServeConfig(rate, device))))
  }

  datatype Effect =
    | PlayStart
    | PlayStop
    | NotifyListening
    | NotifyTranscribing
    | NotifyComplete
    | SendAudio(wav: seq<Wav.byte>)   // the container handed to the transcriber
    | Paste(text: string)

  function Count(e: Effect, es: seq<Effect>): nat {
    if |es| == 0 then 0 else (if es[0] == e then 1 else 0) + Count(e, es[1..])
  }

  /** A cue sound, unless sounds are off. */
  function Sound(cfg: Config, e: Effect): (es: seq<Effect>)
    ensures cfg.noSound ==> es == []
    ensures !cfg.noSound ==> es == [e]
  {
    if cfg.noSound then [] else [e]
  }

  // ---------------------------------------------------------------------------
  // Starting and stopping a session
  // ---------------------------------------------------------------------------

  /** `_start`: begin a session unless one is already running. */
  function StartListening(cfg: Config, st: State): (res: (string, State, seq<Effect>))
    ensures st.listening ==> res == ("already", st, [])
    ensures !st.listening ==> res.0 == "started" && res.1.listening
    ensures !st.listening ==> res.1.recorder.active && res.1.recorder.frames == Some([])
    ensures !st.listening ==> res.1.recorder.worker == st.recorder.worker && res.1.recorder.cfg == st.recorder.cfg
    ensures !st.listening ==> (PlayStart in res.2 <==> !cfg.noSound) && NotifyListening in res.2
    ensures Count(NotifyComplete, res.2) == 0 && forall e | e in res.2 :: !e.Paste? && !e.SendAudio?
  {
    if st.listening then ("already", st, [])
    else
      var es := Sound(cfg, PlayStart) + [NotifyListening];
      CountNoComplete(es);
      ("started", State(true, Audio.BeginSession(st.recorder)), es)
  }

  /** How `_stop_and_transcribe` ends: a status, or the encoder's exception escaping. */
  datatype StopResult = Finished(status: string) | Threw(error: Wav.EncodeError)

  /** The statuses a stop that started from listening can return. */
  predicate SessionStatus(s: string) {
    s == "no_audio" || s == "transcribed" || s == "empty" || s == "error"
  }

  /**
   * `_stop_and_transcribe`: end the session, encode what it captured, and
   * hand non-empty audio to the transcriber (whose outcome is `outcome`).
   */
  function StopAndTranscribe(cfg: Config, st: State, outcome: Transcribe.Outcome)
    : (res: (StopResult, State, seq<Effect>))
    ensures !st.listening ==> res == (Finished("not_active"), st, [])
    ensures st.listening ==> !res.1.listening && !res.1.recorder.active && res.1.recorder.frames == None
    ensures st.listening ==> res.1.recorder.worker == st.recorder.worker && res.1.recorder.cfg == st.recorder.cfg
    ensures st.listening && res.0.Finished? ==> SessionStatus(res.0.status) && Count(NotifyComplete, res.2) == 1
    ensures res.0.Threw? ==> Count(NotifyComplete, res.2) == 0
    ensures (exists t :: Paste(t) in res.2) <==> res.0 == Finished("transcribed")
    ensures forall t | Paste(t) in res.2 :: outcome.Returned? && t == outcome.text
  {
    if !st.listening then (Finished("not_active"), st, [])
    else
      var (rec, frames) := Audio.EndSession(st.recorder);
      var tail := StopTail(Wav.FloatToWavBytes(frames, cfg.rate), outcome);
      PreludeNeutral(cfg, tail.1);
      (tail.0, State(false, rec), StopPrelude(cfg) + tail.1)
  }

  /** What a stop does first: the stop cue, unless sounds are off, and the transcribing notification. */
  function StopPrelude(cfg: Config): seq<Effect> {
    Sound(cfg, PlayStop) + [NotifyTranscribing]
  }

  /** What a stop does after its prelude, given the encoder's result and the transcriber's outcome. */
  function StopTail(encoded: Result<seq<Wav.byte>, Wav.EncodeError>, outcome: Transcribe.Outcome)
    : (res: (StopResult, seq<Effect>))
    ensures res.0.Finished? ==> SessionStatus(res.0.status) && Count(NotifyComplete, res.1) == 1
    ensures res.0.Threw? <==> encoded.Failure?
    ensures res.0.Threw? ==> res.1 == []
    ensures (exists t :: Paste(t) in res.1) <==> res.0 == Finished("transcribed")
    ensures forall t | Paste(t) in res.1 :: outcome.Returned? && t == outcome.text
  {
    match encoded
    case Failure(e) => (Threw(e), [])
    case Success(wav) =>
      if |wav| == 0 then (Finished("no_audio"), [NotifyComplete])
      else
        match outcome
        case Returned(text) =>
          if |text| > 0 then
            var es := [SendAudio(wav), Paste(text), NotifyComplete];
            assert Paste(text) in es;
            (Finished("transcribed"), es)
          else (Finished("empty"), [SendAudio(wav), NotifyComplete])
        case Raised(_) => (Finished("error"), [SendAudio(wav), NotifyComplete])
  }

  /** The prelude neither completes nor pastes. */
  lemma PreludeNeutral(cfg: Config, tail: seq<Effect>)
    ensures Count(NotifyComplete, StopPrelude(cfg) + tail) == Count(NotifyComplete, tail)
    ensures (exists t :: Paste(t) in StopPrelude(cfg) + tail) <==> (exists t :: Paste(t) in tail)
    ensures forall t :: Paste(t) in StopPrelude(cfg) + tail <==> Paste(t) in tail
  {
    var pre := StopPrelude(cfg);
    CountNoComplete(pre);
    CountAppend(NotifyComplete, pre, tail);
    assert forall t :: Paste(t) !in pre;
  }

  lemma CountNoComplete(es: seq<Effect>)
    requires NotifyComplete !in es
    ensures Count(NotifyComplete, es) == 0
  {
    if |es| > 0 {
      assert es[0] != NotifyComplete;
      assert NotifyComplete !in es[1..];
      CountNoComplete(es[1..]);
    }
  }

  lemma {:induction false} CountAppend(e: Effect, a: seq<Effect>, b: seq<Effect>)
    ensures Count(e, a + b) == Count(e, a) + Count(e, b)
    decreases |a|
  {
    if |a| == 0 {
      assert a + b == b;
    } else {
      assert (a + b)[0] == a[0];
      assert (a + b)[1..] == a[1..] + b;
      CountAppend(e, a[1..], b);
    }
  }

  /** What a stop that started from listening does, in terms of the captured blocks. */
  lemma StopOutcome(cfg: Config, st: State, outcome: Transcribe.Outcome)
    requires Inv(st) && st.listening
    ensures var blocks := st.recorder.frames.value;
      var (r, _, es) := StopAndTranscribe(cfg, st, outcome);
      && (r.Threw? <==> Wav.FloatToWavBytes(blocks, cfg.rate).Failure?)
      && (r == Finished("no_audio") <==> |Wav.Flatten(blocks)| == 0)
      && (forall w | SendAudio(w) in es :: Wav.FloatToWavBytes(blocks, cfg.rate) == Success(w) && |w| > 0)
      && (r == Finished("transcribed") <==> |Wav.Flatten(blocks)| > 0 && r.Finished?
                                              && outcome.Returned? && |outcome.text| > 0)
      && (r == Finished("error") <==> |Wav.Flatten(blocks)| > 0 && r.Finished? && outcome.Raised?)
  {
  }

  // ---------------------------------------------------------------------------
  // Requests
  // ---------------------------------------------------------------------------

  /** A decoded JSON value. */
  datatype Json =
    | JNull
    | JBool(b: bool)
    | JInt(i: int)
    | JFloat(x: real)
    | JStr(s: string)
    | JArray(items: seq<Json>)
    | JObject(fields: map<string, Json>)

  /** Python truthiness of a decoded value. */
  predicate Truthy(v: Json) {
    match v
    case JNull => false
    case JBool(b) => b
    case JInt(i) => i != 0
    case JFloat(x) => x != 0.0
    case JStr(s) => |s| > 0
    case JArray(items) => |items| > 0
    case JObject(fields) => |fields| > 0
  }

  /** The Python type name of a decoded value. */
  function TypeName(v: Json): string {
    match v
    case JNull => "NoneType"
    case JBool(_) => "bool"
    case JInt(_) => "int"
    case JFloat(_) => "float"
    case JStr(_) => "str"
    case JArray(_) => "list"
    case JObject(_) => "dict"
  }

  /** What arrived on a connection: bytes that do not decode as JSON, or a decoded value. */
  datatype Request = Undecodable | Decoded(value: Json)

  /** A request naming a command. */
  function Cmd(name: string): Request {
    Decoded(JObject(map["cmd" := JStr(name)]))
  }

  /** Why a request failed; the reply carries the exception's text, abstracted here as its kind. */
  datatype Failure =
    | UnknownCommand
    | NoAttribute(typeName: string, attribute: string)   // an `AttributeError`
    | EncodeFailed(error: Wav.EncodeError)

  /**
   * `(cmd.get("cmd") or "").lower()`, where `cmd` is `{}` when decoding
   * failed: a decoded value that is not an object has no `get`, and a truthy
   * command that is not a string has no `lower`.
   */
  function Action(req: Request): (a: Result<string, Failure>)
    ensures req.Undecodable? ==> a == Success("")
    ensures req.Decoded? && !req.value.JObject? ==> a == Failure(NoAttribute(TypeName(req.value), "get"))
    ensures a.Success? ==> Text.Lower(a.value) == a.value
  {
    match req
    case Undecodable => Success("")
    case Decoded(v) =>
      if v.JObject? then CommandField(v.fields) else Failure(NoAttribute(TypeName(v), "get"))
  }

  /** `(fields.get("cmd") or "").lower()` on a decoded object. */
  function CommandField(fields: map<string, Json>): (a: Result<string, Failure>)
    ensures a.Success? ==> Text.Lower(a.value) == a.value
  {
    if "cmd" !in fields then Success("")
    else
      var v := fields["cmd"];
      if !Truthy(v) then Success("")
      else if v.JStr? then Text.LowerIdempotent(v.s); Success(Text.Lower(v.s))
      else Failure(NoAttribute(TypeName(v), "lower"))
  }

  /** A command name in any letter case selects the same action. */
  lemma ActionOfCmd(name: string)
    ensures Action(Cmd(name)) == Success(Text.Lower(name))
  {
    if |name| == 0 {
      assert Text.Lower(name) == "";
    }
  }

  /** The reply sent back on the connection; absent fields are not in the JSON object. */
  datatype Response = Response(
    ok: bool,
    status: Option<string>,
    result: Option<string>,
    listening: Option<bool>,
    error: Option<Failure>)

  function Reply(result: string, listening: bool): Response {
    Response(true, None, Some(result), Some(listening), None)
  }

  function Error(f: Failure): Response {
    Response(false, None, None, None, Some(f))
  }

  /** One request handled: the reply, the new state, whether to stop serving, and the effects. */
  datatype Handled = Handled(response: Response, state: State, shutdown: bool, effects: seq<Effect>)

  predicate IsShutdown(a: string) {
    a == "shutdown" || a == "stop-server" || a == "quit"
  }

  /**
   * `h` is what a stop does: the state and effects of `_stop_and_transcribe`,
   * a reply carrying its status and the flag (now off), or the escaping
   * exception as an error reply, which also cancels a requested shutdown.
   */
  predicate StoppedAs(h: Handled, cfg: Config, st: State, outcome: Transcribe.Outcome, shutdown: bool) {
    var (r, st', es) := StopAndTranscribe(cfg, st, outcome);
    && h.state == st' && h.effects == es
    && h.response == (if r.Finished? then Reply(r.status, false) else Error(EncodeFailed(r.error)))
    && h.shutdown == (shutdown && r.Finished?)
  }

  /** `h` is what a start does: the state and effects of `_start`, and a reply with its status and the flag (now on). */
  predicate StartedAs(h: Handled, cfg: Config, st: State) {
    var (status, st', es) := StartListening(cfg, st);
    h.state == st' && h.effects == es && h.response == Reply(status, true) && !h.shutdown
  }

  /** A stop run inside the dispatch: its status, or the escaping exception as an error reply. */
  function StopReply(cfg: Config, st: State, outcome: Transcribe.Outcome, shutdown: bool): (h: Handled)
    ensures StoppedAs(h, cfg, st, outcome, shutdown)
    ensures !h.state.listening
    ensures h.shutdown ==> shutdown
    ensures st.listening ==> Inv(h.state)
  {
    var (r, st', es) := StopAndTranscribe(cfg, st, outcome);
    match r
    case Finished(status) => Handled(Reply(status, st'.listening), st', shutdown, es)
    case Threw(e) => Handled(Error(EncodeFailed(e)), st', false, es)
  }

  /** A start run inside the dispatch. */
  function StartReply(cfg: Config, st: State): (h: Handled)
    ensures StartedAs(h, cfg, st)
    ensures !h.shutdown && h.state.listening
    ensures Inv(st) ==> Inv(h.state)
  {
    var (status, st', es) := StartListening(cfg, st);
    Handled(Reply(status, st'.listening), st', false, es)
  }

  /** The dispatch of one connection's request. */
  function Handle(cfg: Config, st: State, req: Request, outcome: Transcribe.Outcome): (h: Handled)
    // Malformed and unknown requests change nothing.
    ensures h.response.ok == false ==> h.response.error.Some? && (h.state == st || h.response.error.value.EncodeFailed?)
    ensures (h.response.error == Some(UnknownCommand) || (h.response.error.Some? && h.response.error.value.NoAttribute?))
              ==> h.state == st && h.effects == [] && !h.shutdown
    // Every reply that reports the flag reports the flag after the operation.
    ensures h.response.listening.Some? ==> h.response.listening.value == h.state.listening
    // A shutdown reply always says not listening.
    ensures h.shutdown ==> h.response.ok && h.response.listening == Some(false) && !h.state.listening
  {
    match Action(req)
    case Failure(f) => Handled(Error(f), st, false, [])
    case Success(a) =>
      if a == "ping" || a == "status" then
        Handled(Response(true, Some(if st.listening then "listening" else "idle"), None, None, None), st, false, [])
      else if a == "toggle" then
        if st.listening then StopReply(cfg, st, outcome, false) else StartReply(cfg, st)
      else if a == "start" then StartReply(cfg, st)
      else if a == "stop" then StopReply(cfg, st, outcome, false)
      else if IsShutdown(a) then
        if st.listening then StopReply(cfg, st, outcome, true)
        else Handled(Reply("stopped", false), st, true, [])
      else Handled(Error(UnknownCommand), st, false, [])
  }

  /** Handling a request keeps the flag and the recorder's session in agreement. */
  lemma HandlePreservesInv(cfg: Config, st: State, req: Request, outcome: Transcribe.Outcome)
    requires Inv(st)
    ensures Inv(Handle(cfg, st, req, outcome).state)
  {
  }

  /** The behaviour of each command, by name in any letter case. */
  lemma HandleCommand(cfg: Config, st: State, name: string, outcome: Transcribe.Outcome)
    ensures var a := Text.Lower(name); var h := Handle(cfg, st, Cmd(name), outcome);
      && ((a == "ping" || a == "status") ==>
            h == Handled(Response(true, Some(if st.listening then "listening" else "idle"), None, None, None), st, false, []))
      && (a == "toggle" ==> h.state.listening == !st.listening && !h.shutdown)
      && (a == "toggle" && st.listening ==> StoppedAs(h, cfg, st, outcome, false))
      && (a == "toggle" && !st.listening ==> StartedAs(h, cfg, st) && h.response == Reply("started", true))
      && (a == "start" ==> StartedAs(h, cfg, st))
      && (a == "start" ==> h.state.listening && h.response == Reply(if st.listening then "already" else "started", true))
      && (a == "stop" ==> StoppedAs(h, cfg, st, outcome, false))
      && (a == "stop" ==> !h.state.listening && !h.shutdown)
      && (a == "stop" && !st.listening ==> h == Handled(Reply("not_active", false), st, false, []))
      && (IsShutdown(a) && !st.listening ==> h == Handled(Reply("stopped", false), st, true, []))
      && (IsShutdown(a) && st.listening ==> StoppedAs(h, cfg, st, outcome, true))
      && (IsShutdown(a) && st.listening ==>
            (h.shutdown <==> StopAndTranscribe(cfg, st, outcome).0.Finished?))
      && (!(a in {"ping", "status", "toggle", "start", "stop"} || IsShutdown(a)) ==>
            h == Handled(Error(UnknownCommand), st, false, []))
  {
    ActionOfCmd(name);
  }

  // ---------------------------------------------------------------------------
  // The accept loop
  // ---------------------------------------------------------------------------

  /** What happens while the daemon runs: a connection, or the driver delivering a block. */
  datatype Input =
    | Connection(req: Request, outcome: Transcribe.Outcome)
    | Capture(block: Audio.Block, flagged: bool)

  /** The result of serving a run of inputs. */
  datatype Served = Served(state: State, replies: seq<Response>, effects: seq<Effect>, exited: bool)

  /** How many of the inputs are connections. */
  function Connections(ins: seq<Input>): nat {
    if |ins| == 0 then 0 else (if ins[0].Connection? then 1 else 0) + Connections(ins[1..])
  }

  /**
   * The accept loop: connections are served in order until one asks for
   * shutdown. Every connection gets exactly one reply until then, and none
   * after it.
   */
  function Serve(cfg: Config, st: State, ins: seq<Input>): (s: Served)
    ensures !s.exited ==> |s.replies| == Connections(ins)
    ensures s.exited ==> 0 < |s.replies| <= Connections(ins)
    decreases |ins|
  {
    if |ins| == 0 then Served(st, [], [], false)
    else
      match ins[0]
      case Capture(b, f) =>
        Serve(cfg, st.(recorder := Audio.Callback(st.recorder, b, f)), ins[1..])
      case Connection(req, outcome) =>
        var h := Handle(cfg, st, req, outcome);
        if h.shutdown then Served(h.state, [h.response], h.effects, true)
        else
          var rest := Serve(cfg, h.state, ins[1..]);
          Served(rest.state, [h.response] + rest.replies, h.effects + rest.effects, rest.exited)
  }

  /** The flag and the session stay in agreement for the whole life of the daemon. */
  lemma {:induction false} ServePreservesInv(cfg: Config, st: State, ins: seq<Input>)
    requires Inv(st)
    ensures Inv(Serve(cfg, st, ins).state)
    decreases |ins|
  {
    if |ins| > 0 {
      match ins[0]
      case Capture(b, f) =>
        ServePreservesInv(cfg, st.(recorder := Audio.Callback(st.recorder, b, f)), ins[1..]);
      case Connection(req, outcome) =>
        HandlePreservesInv(cfg, st, req, outcome);
        ServePreservesInv(cfg, Handle(cfg, st, req, outcome).state, ins[1..]);
    }
  }

  /** Once the daemon exits it has stopped listening, and the shutdown reply was the last one. */
  lemma {:induction false} ExitEndsIdle(cfg: Config, st: State, ins: seq<Input>)
    requires Serve(cfg, st, ins).exited
    ensures var s := Serve(cfg, st, ins);
      !s.state.listening && |s.replies| > 0 && s.replies[|s.replies| - 1].listening == Some(false)
    decreases |ins|
  {
    match ins[0]
    case Capture(b, f) =>
      ExitEndsIdle(cfg, st.(recorder := Audio.Callback(st.recorder, b, f)), ins[1..]);
    case Connection(req, outcome) =>
      var h := Handle(cfg, st, req, outcome);
      if !h.shutdown {
        ExitEndsIdle(cfg, h.state, ins[1..]);
      }
  }

  /** Only driver blocks, no connections. */
  predicate Captures(ins: seq<Input>) {
    forall i | 0 <= i < |ins| :: ins[i].Capture?
  }

  function Blocks(ins: seq<Input>): seq<Audio.Block>
    requires Captures(ins)
  {
    if |ins| == 0 then [] else [ins[0].block] + Blocks(ins[1..])
  }

  /** While listening, driver blocks are buffered in order and nothing else happens. */
  lemma CapturesWhileListening(cfg: Config, st: State, ins: seq<Input>)
    requires Inv(st) && st.listening && Captures(ins)
    ensures var s := Serve(cfg, st, ins);
      s == Served(st.(recorder := st.recorder.(frames := Some(st.recorder.frames.value + Blocks(ins)))), [], [], false)
  {
    ServeCapturesThen(cfg, st, ins, []);
    assert ins + [] == ins;
  }

  /**
   * A start, some driver blocks, then a stop: the daemon ends idle, and when
   * the blocks hold audio, the transcriber is handed the encoding of exactly
   * those blocks and nothing else.
   */
  lemma SessionSendsItsAudio(cfg: Config, st: State, o1: Transcribe.Outcome, mid: seq<Input>, o2: Transcribe.Outcome)
    requires Inv(st) && !st.listening && Captures(mid)
    ensures var s := Serve(cfg, st, [Connection(Cmd("start"), o1)] + mid + [Connection(Cmd("stop"), o2)]);
      && !s.state.listening && Inv(s.state) && |s.replies| == 2
      && (forall w | SendAudio(w) in s.effects :: Wav.FloatToWavBytes(Blocks(mid), cfg.rate) == Success(w))
      && (Wav.FloatToWavBytes(Blocks(mid), cfg.rate).Success? && |Wav.Flatten(Blocks(mid))| > 0 ==>
            SendAudio(Wav.FloatToWavBytes(Blocks(mid), cfg.rate).value) in s.effects)
  {
    var stop := Connection(Cmd("stop"), o2);
    var ins := [Connection(Cmd("start"), o1)] + mid + [stop];
    var h1 := Handle(cfg, st, Cmd("start"), o1);
    HandleStart(cfg, st, o1);
    var st1 := h1.state;
    var st2 := st1.(recorder := st1.recorder.(frames := Some(Blocks(mid))));
    assert ins[1..] == mid + [stop];
    ServeConnection(cfg, st, Cmd("start"), o1, mid + [stop]);
    assert [] + Blocks(mid) == Blocks(mid);
    ServeCaptureThen(cfg, st1, mid, stop);
    var h2 := Handle(cfg, st2, Cmd("stop"), o2);
    HandleStop(cfg, st2, o2);
    StopOutcome(cfg, st2, o2);
    ServeLast(cfg, st2, Cmd("stop"), o2);
    var s := Serve(cfg, st, ins);
    assert s.effects == h1.effects + h2.effects;
    assert forall w | SendAudio(w) in s.effects :: SendAudio(w) in h2.effects;
  }

  lemma HandleStart(cfg: Config, st: State, outcome: Transcribe.Outcome)
    requires Inv(st) && !st.listening
    ensures var h := Handle(cfg, st, Cmd("start"), outcome);
      && h.state == State(true, Audio.BeginSession(st.recorder)) && !h.shutdown
      && (forall e | e in h.effects :: !e.SendAudio?)
  {
    ActionOfCmd("start");
    assert Text.Lower("start") == "start";
  }

  lemma HandleStop(cfg: Config, st: State, outcome: Transcribe.Outcome)
    ensures var h := Handle(cfg, st, Cmd("stop"), outcome);
      h.state == StopAndTranscribe(cfg, st, outcome).1 && h.effects == StopAndTranscribe(cfg, st, outcome).2
      && !h.shutdown
  {
    ActionOfCmd("stop");
    assert Text.Lower("stop") == "stop";
  }

  /** What serving `s` and then, from where it left off, `t` amounts to. */
  function Then(s: Served, t: Served): Served {
    Served(t.state, s.replies + t.replies, s.effects + t.effects, t.exited)
  }

  /** A connection that asks for shutdown is the last one answered: the loop ends after its reply. */
  lemma ShutdownEndsLoop(cfg: Config, st: State, req: Request, outcome: Transcribe.Outcome, tail: seq<Input>)
    requires Handle(cfg, st, req, outcome).shutdown
    ensures var h := Handle(cfg, st, req, outcome);
      Serve(cfg, st, [Connection(req, outcome)] + tail) == Served(h.state, [h.response], h.effects, true)
  {
    assert ([Connection(req, outcome)] + tail)[0] == Connection(req, outcome);
  }

  /**
   * Serving runs in sequence: once the loop has exited, later inputs are
   * never read and get no reply; otherwise serving goes on from the state
   * reached, and the replies and effects follow those so far.
   */
  lemma {:induction false} ServeAppend(cfg: Config, st: State, a: seq<Input>, b: seq<Input>)
    ensures var s := Serve(cfg, st, a);
      Serve(cfg, st, a + b) == if s.exited then s else Then(s, Serve(cfg, s.state, b))
    decreases |a|
  {
    if |a| == 0 {
      assert a + b == b;
      var t := Serve(cfg, st, b);
      assert [] + t.replies == t.replies && [] + t.effects == t.effects;
    } else {
      assert a == [a[0]] + a[1..];
      assert a + b == [a[0]] + (a[1..] + b);
      match a[0]
      case Capture(blk, f) =>
        ServeAppend(cfg, st.(recorder := Audio.Callback(st.recorder, blk, f)), a[1..], b);
      case Connection(req, outcome) =>
        var h := Handle(cfg, st, req, outcome);
        if h.shutdown {
          ShutdownEndsLoop(cfg, st, req, outcome, a[1..]);
          ShutdownEndsLoop(cfg, st, req, outcome, a[1..] + b);
        } else {
          ServeConnection(cfg, st, req, outcome, a[1..]);
          ServeConnection(cfg, st, req, outcome, a[1..] + b);
          ServeAppend(cfg, h.state, a[1..], b);
          var ra := Serve(cfg, h.state, a[1..]);
          ThenAfterReply(h.response, h.effects, ra, Serve(cfg, ra.state, b));
        }
    }
  }

  /** Going on after one more reply is going on after the rest. */
  lemma ThenAfterReply(resp: Response, es: seq<Effect>, s: Served, t: Served)
    ensures Then(Served(s.state, [resp] + s.replies, es + s.effects, s.exited), t)
         == Served(t.state, [resp] + Then(s, t).replies, es + Then(s, t).effects, t.exited)
  {
    assert ([resp] + s.replies) + t.replies == [resp] + (s.replies + t.replies);
    assert (es + s.effects) + t.effects == es + (s.effects + t.effects);
  }

  /** Serving a connection that does not ask for shutdown, then the rest. */
  lemma ServeConnection(cfg: Config, st: State, req: Request, outcome: Transcribe.Outcome, tail: seq<Input>)
    requires !Handle(cfg, st, req, outcome).shutdown
    ensures var h := Handle(cfg, st, req, outcome); var rest := Serve(cfg, h.state, tail);
      Serve(cfg, st, [Connection(req, outcome)] + tail)
        == Served(rest.state, [h.response] + rest.replies, h.effects + rest.effects, rest.exited)
  {
    assert ([Connection(req, outcome)] + tail)[1..] == tail;
  }

  /** Serving one last connection that does not ask for shutdown. */
  lemma ServeLast(cfg: Config, st: State, req: Request, outcome: Transcribe.Outcome)
    requires !Handle(cfg, st, req, outcome).shutdown
    ensures var h := Handle(cfg, st, req, outcome);
      Serve(cfg, st, [Connection(req, outcome)]) == Served(h.state, [h.response], h.effects, false)
  {
    var h := Handle(cfg, st, req, outcome);
    ServeConnection(cfg, st, req, outcome, []);
    assert [Connection(req, outcome)] + [] == [Connection(req, outcome)];
    assert h.effects + [] == h.effects;
    assert [h.response] + [] == [h.response];
  }

  /** Serving driver blocks while listening and then one more input. */
  lemma ServeCaptureThen(cfg: Config, st: State, mid: seq<Input>, last: Input)
    requires Inv(st) && st.listening && Captures(mid)
    ensures Serve(cfg, st, mid + [last])
         == Serve(cfg, st.(recorder := st.recorder.(frames := Some(st.recorder.frames.value + Blocks(mid)))), [last])
  {
    ServeCapturesThen(cfg, st, mid, [last]);
  }

  lemma {:induction false} ServeCapturesThen(cfg: Config, st: State, mid: seq<Input>, tail: seq<Input>)
    requires Inv(st) && st.listening && Captures(mid)
    ensures Serve(cfg, st, mid + tail)
         == Serve(cfg, st.(recorder := st.recorder.(frames := Some(st.recorder.frames.value + Blocks(mid)))), tail)
    decreases |mid|
  {
    var fv := st.recorder.frames.value;
    if |mid| == 0 {
      assert mid + tail == tail;
      assert fv + [] == fv;
      assert st.(recorder := st.recorder.(frames := Some(fv))) == st;
    } else {
      var b := mid[0].block;
      assert mid + tail == [mid[0]] + (mid[1..] + tail);
      ServeCaptureStep(cfg, st, b, mid[0].flagged, mid[1..] + tail);
      var st1 := st.(recorder := st.recorder.(frames := Some(fv + [b])));
      assert Captures(mid[1..]);
      ServeCapturesThen(cfg, st1, mid[1..], tail);
      assert Blocks(mid) == [b] + Blocks(mid[1..]);
      assert (fv + [b]) + Blocks(mid[1..]) == fv + Blocks(mid);
    }
  }

  /** One driver block while listening is appended to the session, and serving goes on. */
  lemma ServeCaptureStep(cfg: Config, st: State, b: Audio.Block, f: bool, tail: seq<Input>)
    requires Inv(st) && st.listening
    ensures Serve(cfg, st, [Capture(b, f)] + tail)
         == Serve(cfg, st.(recorder := st.recorder.(frames := Some(st.recorder.frames.value + [b]))), tail)
  {
    var ins := [Capture(b, f)] + tail;
    assert ins[0] == Capture(b, f) && ins[1..] == tail;
    assert Audio.Callback(st.recorder, b, f) == st.recorder.(frames := Some(st.recorder.frames.value + [b]));
  }
}

=== FILE: launcher.dfy ===
/**
 * The command line used to spawn the daemon in the background
 * (`_start_server_background`), and a reader of that command line that
 * recovers the options it carries.
 */
module Launcher {
  import opened Wrappers
  import Text

  /** The options the daemon is started with. */
  datatype ServeOptions = ServeOptions(model: string, rate: int, device: Option<int>, noSound: bool)

  /** The fixed head of the command: the interpreter runs the package's `serve` sub-command. */
  function Head(python: string): seq<string> {
    [python, "-m", "voiceapp", "serve"]
  }

  /** The argument vector for the background daemon. */
  function BackgroundArgv(python: string, opts: ServeOptions): (argv: seq<string>)
    ensures |argv| == 8 + (if opts.device.Some? then 2 else 0) + (if opts.noSound then 1 else 0)
    ensures argv[..4] == Head(python)
    ensures argv[4] == "--model" && argv[5] == opts.model
    ensures argv[6] == "--rate" && Text.ParseInt(argv[7]) == Some(opts.rate)
    ensures opts.device.Some? ==> argv[8] == "--device" && Text.ParseInt(argv[9]) == Some(opts.device.value)
    ensures opts.noSound <==> argv[|argv| - 1] == "--no-sound"
  {
    Text.IntToStringRoundTrip(opts.rate);
    var args := Head(python) + ["--model", opts.model, "--rate", Text.IntToString(opts.rate)];
    var withDevice :=
      if opts.device.Some? then
        Text.IntToStringRoundTrip(opts.device.value);
        args + ["--device", Text.IntToString(opts.device.value)]
      else args;
    assert withDevice[|withDevice| - 1] != "--no-sound" by {
      NotFlag(opts.device, opts.rate);
    }
    if opts.noSound then withDevice + ["--no-sound"] else withDevice
  }

  /** A decimal number never reads as the sound flag. */
  lemma NotFlag(device: Option<int>, rate: int)
    ensures device.Some? ==> Text.IntToString(device.value) != "--no-sound"
    ensures Text.IntToString(rate) != "--no-sound"
  {
    Text.IntToStringRoundTrip(rate);
    assert Text.ParseInt("--no-sound").None?;
    if device.Some? {
      Text.IntToStringRoundTrip(device.value);
    }
  }

  /** Reads the options back from the part after the fixed head, in the order the launcher writes them. */
  function ParseServeOptions(rest: seq<string>): (r: Option<ServeOptions>)
    ensures r.Some? ==> 4 <= |rest| <= 7
  {
    if |rest| < 4 || rest[0] != "--model" || rest[2] != "--rate" then None
    else
      match Text.ParseInt(rest[3])
      case None => None
      case Some(rate) =>
        var tail := rest[4..];
        if |tail| == 0 then Some(ServeOptions(rest[1], rate, None, false))
        else if tail == ["--no-sound"] then Some(ServeOptions(rest[1], rate, None, true))
        else if |tail| >= 2 && tail[0] == "--device" && (|tail| == 2 || tail[2..] == ["--no-sound"]) then
          match Text.ParseInt(tail[1])
          case None => None
          case Some(d) => Some(ServeOptions(rest[1], rate, Some(d), |tail| == 3))
        else None
  }

  /** The background command names the package's `serve` sub-command and carries exactly the options given. */
  lemma ArgvRoundTrip(python: string, opts: ServeOptions)
    ensures var argv := BackgroundArgv(python, opts);
      argv[..4] == Head(python) && ParseServeOptions(argv[4..]) == Some(opts)
  {
    var argv := BackgroundArgv(python, opts);
    var rest := argv[4..];
    Text.IntToStringRoundTrip(opts.rate);
    assert rest[..4] == ["--model", opts.model, "--rate", Text.IntToString(opts.rate)];
    if opts.device.Some? {
      Text.IntToStringRoundTrip(opts.device.value);
      assert rest[4..6] == ["--device", Text.IntToString(opts.device.value)];
      if opts.noSound {
        assert rest[4..][2..] == ["--no-sound"];
      }
    } else if opts.noSound {
      assert rest[4..] == ["--no-sound"];
    }
  }
}

=== FILE: platform.dfy ===
/**
 * Operating-system dispatch. The name reported by `platform.system()` is an
 * input: "Windows", "Darwin", or anything else for Linux and other systems.
 */
module Platform {

  predicate IsMacOS(system: string) {
    system == "Darwin"
  }

  predicate IsWindows(system: string) {
    system == "Windows"
  }

  /**
   * The modifier and key that paste from the clipboard: Command+V on macOS,
   * Ctrl+V everywhere else.
   */
  function PasteKeystroke(system: string): (r: seq<string>)
    ensures |r| == 2 && r[1] == "v"
    ensures r[0] == "command" <==> IsMacOS(system)
    ensures r[0] == "command" || r[0] == "ctrl"
  {
    if IsMacOS(system) then ["command", "v"] else ["ctrl", "v"]
  }
}

=== FILE: settings.dfy ===
/**
 * Per-user settings: where the configuration directory lives on each
 * operating system, and the order in which the API key is looked up.
 * The environment is a map, the home directory and working directory are
 * paths, and the filesystem is a map from path to readable file content.
 */
module Settings {
  import opened Wrappers
  import Text
  import Platform

  /** A filesystem path as its components; a base taken from the environment is one component. */
  type Path = seq<string>

  /** Process environment variables. */
  type Env = map<string, string>

  /** Regular files that can be read, by path. A path that is missing, not a file, or unreadable is absent. */
  type Files = map<Path, string>

  const AppName: string := "VoiceApp"
  const ConfigFileName: string := "config.json"
  const KeyVariable: string := "OPENAI_API_KEY"

  /** Key files looked for, in this order, first in the working directory and then in the config dir. */
  const TxtCandidates: seq<string> := ["openai.txt", "openai.key", "OPENAI_API_KEY.txt"]

  /** `os.environ.get(name)` is set and non-empty. */
  predicate EnvSet(env: Env, name: string) {
    name in env && |env[name]| > 0
  }

  /** The directory holding `config.json` and the key files. */
  function ConfigDir(system: string, env: Env, home: Path): (d: Path)
    ensures Platform.IsWindows(system) && EnvSet(env, "APPDATA") ==> d == [env["APPDATA"], AppName]
    ensures Platform.IsWindows(system) && !EnvSet(env, "APPDATA") ==> d == home + ["AppData", "Roaming", AppName]
    ensures Platform.IsMacOS(system) ==> d == home + ["Library", "Application Support", AppName]
    ensures (!Platform.IsWindows(system) && !Platform.IsMacOS(system) && EnvSet(env, "XDG_CONFIG_HOME"))
              ==> d == [env["XDG_CONFIG_HOME"], "voiceapp"]
    ensures (!Platform.IsWindows(system) && !Platform.IsMacOS(system) && !EnvSet(env, "XDG_CONFIG_HOME"))
              ==> d == home + [".config", "voiceapp"]
  {
    if Platform.IsWindows(system) then
      if EnvSet(env, "APPDATA") then [env["APPDATA"], AppName]
      else home + ["AppData", "Roaming", AppName]
    else if Platform.IsMacOS(system) then
      home + ["Library", "Application Support", AppName]
    else
      var lower := Text.Lower(AppName);
      assert lower == "voiceapp";
      if EnvSet(env, "XDG_CONFIG_HOME") then [env["XDG_CONFIG_HOME"], lower]
      else home + [".config", lower]
  }

  /** The variable, if any, that `ConfigDir` consults on a system. */
  function DirVariable(system: string): Option<string> {
    if Platform.IsWindows(system) then Some("APPDATA")
    else if Platform.IsMacOS(system) then None
    else Some("XDG_CONFIG_HOME")
  }

  /** The config dir depends on the environment only through one variable, and only when it is non-empty. */
  lemma ConfigDirReadsOneVariable(system: string, env1: Env, env2: Env, home: Path)
    requires DirVariable(system).Some? ==>
               var v := DirVariable(system).value;
               EnvSet(env1, v) == EnvSet(env2, v) && (EnvSet(env1, v) ==> env1[v] == env2[v])
    ensures ConfigDir(system, env1, home) == ConfigDir(system, env2, home)
  {
  }

  /** The config dir always ends in the application's directory name, lower-cased outside Windows and macOS. */
  lemma ConfigDirEndsInAppName(system: string, env: Env, home: Path)
    ensures var d := ConfigDir(system, env, home);
      |d| >= 2 && d[|d| - 1] == (if Platform.IsWindows(system) || Platform.IsMacOS(system) then AppName else "voiceapp")
  {
  }

  /** `config_file`: the config dir joined with `config.json`. */
  function ConfigFile(system: string, env: Env, home: Path): (f: Path)
    ensures |f| >= 1 && f[..|f| - 1] == ConfigDir(system, env, home)
    ensures f[|f| - 1] == ConfigFileName
  {
    ConfigDir(system, env, home) + [ConfigFileName]
  }

  /** `_read_key_file`: the stripped content of a readable file, with whitespace-only content as no key. */
  function ReadKeyFile(files: Files, p: Path): (k: Option<string>)
    ensures k.Some? <==> p in files && !Text.AllSpace(files[p])
    ensures k.Some? ==> |k.value| > 0 && Text.IsTrimmed(k.value) && k.value == Text.Trim(files[p])
  {
    if p in files then
      var v := Text.Trim(files[p]);
      if |v| > 0 then Some(v) else None
    else None
  }

  /** The first key file, among `names` in `dir`, that yields a key. */
  function FirstKeyFile(files: Files, dir: Path, names: seq<string>): (k: Option<string>)
    ensures k.Some? ==> |k.value| > 0
    ensures k == FirstPresent(seq(|names|, i requires 0 <= i < |names| => ReadKeyFile(files, dir + [names[i]])))
    decreases |names|
  {
    if |names| == 0 then None
    else
      var k := ReadKeyFile(files, dir + [names[0]]);
      var rest := FirstKeyFile(files, dir, names[1..]);
      assert seq(|names|, i requires 0 <= i < |names| => ReadKeyFile(files, dir + [names[i]]))[1..]
          == seq(|names| - 1, i requires 0 <= i < |names| - 1 => ReadKeyFile(files, dir + [names[1..][i]]));
      if k.Some? then k else rest
  }

  /**
   * `resolve_openai_key`: the environment variable, then the settings
   * value, then the key files of the working directory, then those of the
   * config dir; the first non-empty one wins.
   */
  function ResolveOpenAIKey(env: Env, settings: map<string, string>, files: Files, cwd: Path, configDir: Path)
    : (k: Option<string>)
    ensures k.Some? ==> |k.value| > 0
    ensures EnvSet(env, KeyVariable) ==> k == Some(env[KeyVariable])
  {
    if EnvSet(env, KeyVariable) then Some(env[KeyVariable])
    else if KeyVariable in settings && |settings[KeyVariable]| > 0 then Some(settings[KeyVariable])
    else
      var fromCwd := FirstKeyFile(files, cwd, TxtCandidates);
      if fromCwd.Some? then fromCwd else FirstKeyFile(files, configDir, TxtCandidates)
  }

  // ---------------------------------------------------------------------------
  // The precedence as a list of candidates
  // ---------------------------------------------------------------------------

  /** A source's raw answer: present and non-empty counts as a key. */
  function Lookup(m: map<string, string>, name: string): Option<string> {
    if name in m && |m[name]| > 0 then Some(m[name]) else None
  }

  /** Every place a key may come from, in lookup order. */
  function KeyCandidates(env: Env, settings: map<string, string>, files: Files, cwd: Path, configDir: Path)
    : (cs: seq<Option<string>>)
    ensures |cs| == 2 + 2 * |TxtCandidates|
  {
    [Lookup(env, KeyVariable), Lookup(settings, KeyVariable)]
    + seq(|TxtCandidates|, i requires 0 <= i < |TxtCandidates| => ReadKeyFile(files, cwd + [TxtCandidates[i]]))
    + seq(|TxtCandidates|, i requires 0 <= i < |TxtCandidates| => ReadKeyFile(files, configDir + [TxtCandidates[i]]))
  }

  /** The first present candidate. */
  function FirstPresent(cs: seq<Option<string>>): (k: Option<string>)
    ensures k.Some? ==> exists i | 0 <= i < |cs| :: cs[i] == k && forall j | 0 <= j < i :: cs[j].None?
    ensures k.None? ==> forall i | 0 <= i < |cs| :: cs[i].None?
  {
    if |cs| == 0 then None
    else if cs[0].Some? then cs[0]
    else
      var k := FirstPresent(cs[1..]);
      assert k.Some? ==> exists i | 0 <= i < |cs| :: cs[i] == k && forall j | 0 <= j < i :: cs[j].None? by {
        if k.Some? {
          var i :| 0 <= i < |cs[1..]| && cs[1..][i] == k && forall j | 0 <= j < i :: cs[1..][j].None?;
          assert cs[i + 1] == k && forall j | 0 <= j < i + 1 :: cs[j].None?;
        }
      }
      k
  }

  lemma {:induction false} FirstPresentAppend(a: seq<Option<string>>, b: seq<Option<string>>)
    ensures FirstPresent(a + b) == if FirstPresent(a).Some? then FirstPresent(a) else FirstPresent(b)
    decreases |a|
  {
    if |a| == 0 {
      assert a + b == b;
    } else {
      assert (a + b)[1..] == a[1..] + b;
      FirstPresentAppend(a[1..], b);
    }
  }

  /** The lookup returns exactly the first present candidate, and no key when none is present. */
  lemma ResolveIsFirstCandidate(env: Env, settings: map<string, string>, files: Files, cwd: Path, configDir: Path)
    ensures ResolveOpenAIKey(env, settings, files, cwd, configDir)
         == FirstPresent(KeyCandidates(env, settings, files, cwd, configDir))
  {
    var n := |TxtCandidates|;
    var head := [Lookup(env, KeyVariable), Lookup(settings, KeyVariable)];
    var inCwd := seq(n, i requires 0 <= i < n => ReadKeyFile(files, cwd + [TxtCandidates[i]]));
    var inCfg := seq(n, i requires 0 <= i < n => ReadKeyFile(files, configDir + [TxtCandidates[i]]));
    FirstPresentAppend(head + inCwd, inCfg);
    FirstPresentAppend(head, inCwd);
    assert FirstPresent(head) == (if Lookup(env, KeyVariable).Some? then Lookup(env, KeyVariable) else Lookup(settings, KeyVariable)) by {
      assert head[1..] == [Lookup(settings, KeyVariable)];
      assert head[1..][1..] == [];
    }
  }
}

=== FILE: substitutions.dfy ===
/**
 * User-defined substitutions applied to transcribed text: the rule-file line
 * grammar, the order in which rule files are read, and ordered
 * case-insensitive literal replacement. Rule files are read from a
 * filesystem map; case-insensitivity is ASCII lower-casing.
 */
module Substitutions {
  import opened Wrappers
  import Text
  import Settings

  type Path = Settings.Path

  /** A rule: every source is replaced by the target. */
  datatype Rule = Rule(sources: seq<string>, target: string)

  /** Rule-file names, checked in this order in each directory. */
  const SubstitutionFilenames: seq<string> := ["substitutions.txt", "transcription_substitutions.txt"]

  /** The characters separating sources on one side of a rule. */
  const SourceSeparators: set<char> := {'|', ','}

  /** Line separators, tried in this order. */
  const Separators: seq<string> := ["<-", "->", "="]

  // ---------------------------------------------------------------------------
  // Parsing one line
  // ---------------------------------------------------------------------------

  /** A usable source: non-empty, stripped, and free of source separators. */
  predicate IsSource(s: string) {
    |s| > 0 && Text.IsTrimmed(s) && Text.NoneOf(s, SourceSeparators)
  }

  /** Every piece is non-empty and stripped. */
  predicate Kept(ps: seq<string>) {
    forall i | 0 <= i < |ps| :: ps[i] != [] && Text.IsTrimmed(ps[i])
  }

  /** Strips every piece and drops the pieces left empty, keeping the order. */
  function KeepStripped(pieces: seq<string>): (r: seq<string>)
    ensures |r| <= |pieces|
    ensures Kept(r)
    decreases |pieces|
  {
    if |pieces| == 0 then []
    else
      var p := Text.Trim(pieces[0]);
      var rest := KeepStripped(pieces[1..]);
      if p != [] then KeptCons(p, rest); [p] + rest else rest
  }

  lemma KeptCons(p: string, rest: seq<string>)
    requires p != [] && Text.IsTrimmed(p) && Kept(rest)
    ensures Kept([p] + rest)
  {
    forall i | 0 <= i < |[p] + rest|
      ensures ([p] + rest)[i] != [] && Text.IsTrimmed(([p] + rest)[i])
    {
      if i > 0 {
        assert ([p] + rest)[i] == rest[i - 1];
      }
    }
  }

  /** `_split_sources`: split on '|' and ',', strip each piece, drop empty pieces. */
  function SplitSources(raw: string): (r: seq<string>)
    ensures forall i | 0 <= i < |r| :: IsSource(r[i])
  {
    var pieces := Text.Split(raw, SourceSeparators);
    var r := KeepStripped(pieces);
    assert AllFree(r) by {
      KeepStrippedFromFree(pieces);
    }
    r
  }

  /** No piece holds a source separator. */
  predicate AllFree(pieces: seq<string>) {
    forall i | 0 <= i < |pieces| :: Text.NoneOf(pieces[i], SourceSeparators)
  }

  /** Stripping only removes characters, so separator-free pieces stay separator-free. */
  lemma {:induction false} KeepStrippedFromFree(pieces: seq<string>)
    requires AllFree(pieces)
    ensures AllFree(KeepStripped(pieces))
    decreases |pieces|
  {
    if |pieces| > 0 {
      var head := KeepStrippedHead(pieces);
      assert Text.NoneOf(pieces[0], SourceSeparators);
      Text.TrimNoneOf(pieces[0], SourceSeparators);
      assert AllFree(pieces[1..]);
      KeepStrippedFromFree(pieces[1..]);
      AllFreeConcat(head, KeepStripped(pieces[1..]));
    }
  }

  /** The first piece, stripped, is kept in front unless stripping empties it. */
  lemma KeepStrippedHead(pieces: seq<string>) returns (head: seq<string>)
    requires |pieces| > 0
    ensures head == (if Text.Trim(pieces[0]) != [] then [Text.Trim(pieces[0])] else [])
    ensures KeepStripped(pieces) == head + KeepStripped(pieces[1..])
  {
    head := if Text.Trim(pieces[0]) != [] then [Text.Trim(pieces[0])] else [];
    if head == [] {
      assert head + KeepStripped(pieces[1..]) == KeepStripped(pieces[1..]);
    }
  }

  lemma AllFreeConcat(a: seq<string>, b: seq<string>)
    requires AllFree(a) && AllFree(b)
    ensures AllFree(a + b)
  {
    forall i | 0 <= i < |a + b|
      ensures Text.NoneOf((a + b)[i], SourceSeparators)
    {
      if i < |a| {
        assert (a + b)[i] == a[i];
      } else {
        assert (a + b)[i] == b[i - |a|];
      }
    }
  }

  /** Splits a stripped line at the separator found at index `i`. */
  function SplitRule(stripped: string, sep: string, i: nat): (r: Option<Rule>)
    requires i + |sep| <= |stripped|
    ensures r.Some? ==> |r.value.target| > 0 && Text.IsTrimmed(r.value.target)
    ensures r.Some? ==> |r.value.sources| > 0 && forall j | 0 <= j < |r.value.sources| :: IsSource(r.value.sources[j])
  {
    var left := Text.Trim(stripped[..i]);
    var right := Text.Trim(stripped[i + |sep|..]);
    if |left| == 0 || |right| == 0 then None
    else
      var target := if sep == "<-" then left else right;
      var sources := if sep == "<-" then SplitSources(right) else SplitSources(left);
      if |target| == 0 || |sources| == 0 then None else Some(Rule(sources, target))
  }

  /** Tries the separators in order; the first one present decides the split. */
  function TrySeparators(stripped: string, seps: seq<string>): (r: Option<Rule>)
    ensures r.Some? ==> |r.value.target| > 0 && Text.IsTrimmed(r.value.target)
    ensures r.Some? ==> |r.value.sources| > 0 && forall j | 0 <= j < |r.value.sources| :: IsSource(r.value.sources[j])
    ensures (forall j | 0 <= j < |seps| :: Text.Free(stripped, seps[j])) ==> r.None?
  {
    if |seps| == 0 then None
    else
      match Text.IndexOf(stripped, seps[0])
      case Some(i) => SplitRule(stripped, seps[0], i)
      case None => TrySeparators(stripped, seps[1..])
  }

  /**
   * `_parse_line`: blank and comment lines give no rule; otherwise the line
   * is split at the first occurrence of the first separator present.
   */
  function ParseLine(line: string): (r: Option<Rule>)
    ensures r.Some? ==> |r.value.target| > 0 && Text.IsTrimmed(r.value.target)
    ensures r.Some? ==> |r.value.sources| > 0 && forall j | 0 <= j < |r.value.sources| :: IsSource(r.value.sources[j])
    ensures r.Some? ==> var s := Text.Trim(line); |s| > 0 && s[0] != '#'
    ensures (forall j | 0 <= j < |Separators| :: Text.Free(Text.Trim(line), Separators[j])) ==> r.None?
  {
    var stripped := Text.Trim(line);
    if |stripped| == 0 || stripped[0] == '#' then None
    else TrySeparators(stripped, Separators)
  }

  // ---------------------------------------------------------------------------
  // Writing a rule as a line, and reading it back
  // ---------------------------------------------------------------------------

  /** The three ways of writing a rule on a line. */
  datatype Arrow = LeftArrow | RightArrow | Equals

  function ArrowText(arrow: Arrow): string {
    match arrow
    case LeftArrow => "<-"
    case RightArrow => "->"
    case Equals => "="
  }

  /** `target <- sources`, `sources -> target` or `sources = target`, with the sources joined by '|'. */
  function FormatRule(r: Rule, arrow: Arrow): string {
    var j := Text.Join(r.sources, '|');
    if arrow == LeftArrow then Spaced(r.target, "<-", j) else Spaced(j, ArrowText(arrow), r.target)
  }

  /** `a`, a space, `p`, a space, `b`. */
  function Spaced(a: string, p: string, b: string): string {
    a + (" " + p + " ") + b
  }

  /**
   * A rule its line describes unambiguously: non-empty stripped sources free
   * of the source separators, a non-empty stripped target, the line not
   * starting a comment, and no separator tried earlier than `arrow` occurring
   * anywhere, nor `arrow` itself on the side before it.
   */
  predicate Formattable(r: Rule, arrow: Arrow) {
    && |r.sources| > 0
    && (forall j | 0 <= j < |r.sources| :: IsSource(r.sources[j]))
    && |r.target| > 0 && Text.IsTrimmed(r.target)
    && (if arrow == LeftArrow then r.target[0] else r.sources[0][0]) != '#'
    && Text.Free(r.target, "<-")
    && (arrow != LeftArrow ==> forall j | 0 <= j < |r.sources| :: Text.Free(r.sources[j], "<-") && Text.Free(r.sources[j], "->"))
    && (arrow == Equals ==> Text.Free(r.target, "->") && forall j | 0 <= j < |r.sources| :: Text.NoneOf(r.sources[j], {'='}))
  }

  lemma {:induction false} JoinEnds(parts: seq<string>, sep: char)
    requires |parts| > 0 && forall j | 0 <= j < |parts| :: |parts[j]| > 0
    ensures var s := Text.Join(parts, sep);
      |s| > 0 && s[0] == parts[0][0] && s[|s| - 1] == parts[|parts| - 1][|parts[|parts| - 1]| - 1]
    decreases |parts|
  {
    if |parts| > 1 {
      JoinEnds(parts[1..], sep);
    }
  }

  /** A joined list of sources contains neither arrow when no source does. */
  lemma {:induction false} JoinFree(parts: seq<string>, p: string)
    requires p == "<-" || p == "->"
    requires forall j | 0 <= j < |parts| :: |parts[j]| > 0 && Text.Free(parts[j], p)
    ensures Text.Free(Text.Join(parts, '|'), p)
    decreases |parts|
  {
    if |parts| == 1 {
    } else if |parts| > 1 {
      var rest := Text.Join(parts[1..], '|');
      JoinFree(parts[1..], p);
      JoinEnds(parts[1..], '|');
      Text.FreeOfMissingChar("|", p);
      Text.FreeConcat2("|", rest, p);
      Text.FreeConcat2(parts[0], "|" + rest, p);
      assert parts[0] + ['|'] + rest == parts[0] + ("|" + rest);
    }
  }

  /** Joining with a character outside `cs` keeps a list free of `cs` free of it. */
  lemma {:induction false} JoinNoneOf(parts: seq<string>, sep: char, cs: set<char>)
    requires sep !in cs
    requires forall j | 0 <= j < |parts| :: Text.NoneOf(parts[j], cs)
    ensures Text.NoneOf(Text.Join(parts, sep), cs)
    decreases |parts|
  {
    if |parts| > 1 {
      JoinNoneOf(parts[1..], sep, cs);
      var rest := Text.Join(parts[1..], sep);
      var s := parts[0] + [sep] + rest;
      forall k | 0 <= k < |s| ensures s[k] !in cs {
        if k > |parts[0]| {
          assert s[k] == rest[k - |parts[0]| - 1];
        }
      }
    }
  }

  /** Splitting and stripping the joined sources gives the sources back. */
  lemma SplitSourcesOfJoin(parts: seq<string>, sep: char)
    requires sep in SourceSeparators
    requires |parts| > 0 && forall j | 0 <= j < |parts| :: IsSource(parts[j])
    ensures SplitSources(Text.Join(parts, sep)) == parts
  {
    Text.SplitJoin(parts, sep, SourceSeparators);
    KeepStrippedOfSources(parts);
  }

  /**
   * Splitting any separator-free pieces, interleaved with any mix of '|' and
   * ',', strips every piece and drops the pieces left empty, keeping the order.
   */
  lemma SplitSourcesOfInterleave(pieces: seq<string>, between: seq<char>)
    requires |pieces| == |between| + 1
    requires forall k | 0 <= k < |between| :: between[k] in SourceSeparators
    requires forall i | 0 <= i < |pieces| :: Text.NoneOf(pieces[i], SourceSeparators)
    ensures SplitSources(Text.Interleave(pieces, between)) == KeepStripped(pieces)
  {
    Text.SplitInterleave(pieces, between, SourceSeparators);
  }

  /** Stripping already stripped non-empty pieces keeps them all. */
  lemma {:induction false} KeepStrippedOfSources(parts: seq<string>)
    requires forall j | 0 <= j < |parts| :: IsSource(parts[j])
    ensures KeepStripped(parts) == parts
    decreases |parts|
  {
    if |parts| > 0 {
      Text.TrimOfTrimmed(parts[0]);
      KeepStrippedOfSources(parts[1..]);
    }
  }

  /** A spaced line whose first side lacks the separator splits right after that side. */
  lemma FirstOccurrence(a: string, p: string, b: string)
    requires |p| > 0 && (forall k | 0 <= k < |p| :: p[k] != ' ')
    requires Text.Free(a, p)
    ensures Text.IndexOf(Spaced(a, p, b), p) == Some(|a| + 1)
  {
    var line := Spaced(a, p, b);
    var at := |a| + 1;
    assert line[at..at + |p|] == p;
    assert Text.OccursAt(line, p, at);
    forall k | 0 <= k < at
      ensures !Text.OccursAt(line, p, k)
    {
      if k + |p| <= |a| {
        assert line[k..k + |p|] == a[k..k + |p|];
        assert !Text.OccursAt(a, p, k);
      } else if k + |p| <= |line| {
        assert line[k..k + |p|][|a| - k] == line[|a|] == ' ';
      }
    }
  }

  /** Both sides of a spaced line come back by stripping. */
  lemma SpacedSides(a: string, p: string, b: string)
    requires |a| > 0 && Text.IsTrimmed(a) && |b| > 0 && Text.IsTrimmed(b)
    ensures var line := Spaced(a, p, b);
      |a| + 1 + |p| <= |line|
      && Text.Trim(line[..|a| + 1]) == a
      && Text.Trim(line[|a| + 1 + |p|..]) == b
  {
    var line := Spaced(a, p, b);
    assert line[..|a| + 1] == "" + a + " ";
    Text.TrimPadded("", a, " ");
    assert line[|a| + 1 + |p|..] == " " + b + "";
    Text.TrimPadded(" ", b, "");
  }

  /** A spaced line is already stripped. */
  lemma SpacedStripped(a: string, p: string, b: string)
    requires |a| > 0 && Text.IsTrimmed(a) && |b| > 0 && Text.IsTrimmed(b)
    ensures var line := Spaced(a, p, b); Text.Trim(line) == line && line[0] == a[0]
  {
    var line := Spaced(a, p, b);
    assert line[|line| - 1] == b[|b| - 1];
    Text.TrimOfTrimmed(line);
  }

  /** An arrow absent from both sides is absent from a spaced line whose separator lacks its first character. */
  lemma SpacedFree(a: string, p: string, b: string, q: string)
    requires q == "<-" || q == "->"
    requires Text.Free(a, q) && Text.Free(b, q)
    requires forall k | 0 <= k < |p| :: p[k] != q[0]
    ensures Text.Free(Spaced(a, p, b), q)
  {
    var mid := " " + p + " ";
    Text.FreeOfMissingChar(mid, q);
    Text.FreeConcat2(a, mid, q);
    Text.FreeConcat2(a + mid, b, q);
    assert Spaced(a, p, b) == (a + mid) + b;
  }

  /** Parsing the line of a formattable rule, in any of the three forms, gives the rule back. */
  lemma FormatThenParse(r: Rule, arrow: Arrow)
    requires Formattable(r, arrow)
    ensures ParseLine(FormatRule(r, arrow)) == Some(r)
  {
    match arrow
    case LeftArrow => LeftArrowRoundTrip(r);
    case RightArrow => RightArrowRoundTrip(r);
    case Equals => EqualsRoundTrip(r);
  }

  lemma LeftArrowRoundTrip(r: Rule)
    requires Formattable(r, LeftArrow)
    ensures ParseLine(FormatRule(r, LeftArrow)) == Some(r)
  {
    JoinedSources(r.sources);
    ParseLeftArrow(r.target, Text.Join(r.sources, '|'), r.sources);
  }

  lemma RightArrowRoundTrip(r: Rule)
    requires Formattable(r, RightArrow)
    ensures ParseLine(FormatRule(r, RightArrow)) == Some(r)
  {
    JoinedSources(r.sources);
    JoinedArrowFree(r.sources);
    ParseRightArrow(Text.Join(r.sources, '|'), r.target, r.sources);
  }

  lemma EqualsRoundTrip(r: Rule)
    requires Formattable(r, Equals)
    ensures ParseLine(FormatRule(r, Equals)) == Some(r)
  {
    JoinedSources(r.sources);
    JoinedArrowFree(r.sources);
    JoinedEqualsFree(r.sources);
    ParseEquals(Text.Join(r.sources, '|'), r.target, r.sources);
  }

  /** Sources joined with '|' form a stripped side that starts like the first source and splits back. */
  lemma JoinedSources(sources: seq<string>)
    requires |sources| > 0 && forall j | 0 <= j < |sources| :: IsSource(sources[j])
    ensures var s := Text.Join(sources, '|');
      |s| > 0 && |sources[0]| > 0 && Text.IsTrimmed(s) && s[0] == sources[0][0] && SplitSources(s) == sources
  {
    JoinEnds(sources, '|');
    SplitSourcesOfJoin(sources, '|');
    assert IsSource(sources[0]) && IsSource(sources[|sources| - 1]);
  }

  lemma JoinedArrowFree(sources: seq<string>)
    requires forall j | 0 <= j < |sources| :: IsSource(sources[j])
    requires forall j | 0 <= j < |sources| :: Text.Free(sources[j], "<-") && Text.Free(sources[j], "->")
    ensures Text.Free(Text.Join(sources, '|'), "<-") && Text.Free(Text.Join(sources, '|'), "->")
  {
    JoinFree(sources, "<-");
    JoinFree(sources, "->");
  }

  lemma JoinedEqualsFree(sources: seq<string>)
    requires forall j | 0 <= j < |sources| :: Text.NoneOf(sources[j], {'='})
    ensures Text.Free(Text.Join(sources, '|'), "=")
  {
    JoinNoneOf(sources, '|', {'='});
    Text.FreeOfMissingChar(Text.Join(sources, '|'), "=");
  }

  /** A stripped line not starting a comment is parsed by trying the separators. */
  lemma ParseStripped(line: string)
    requires |line| > 0 && Text.Trim(line) == line && line[0] != '#'
    ensures ParseLine(line) == TrySeparators(line, Separators)
  {
  }

  /** The common conditions on the two sides of a spaced line. */
  predicate Sides(first: string, second: string) {
    |first| > 0 && Text.IsTrimmed(first) && first[0] != '#' && |second| > 0 && Text.IsTrimmed(second)
  }

  /** A spaced line goes straight to the separators. */
  lemma ParseSpaced(a: string, p: string, b: string)
    requires Sides(a, b)
    ensures ParseLine(Spaced(a, p, b)) == TrySeparators(Spaced(a, p, b), Separators)
  {
    SpacedStripped(a, p, b);
    ParseStripped(Spaced(a, p, b));
  }

  /** Splitting a spaced line right after its first side gives the rule its sides describe. */
  lemma SplitSpaced(a: string, p: string, b: string)
    requires Sides(a, b)
    ensures |a| + 1 + |p| <= |Spaced(a, p, b)|
    ensures SplitRule(Spaced(a, p, b), p, |a| + 1)
         == if p == "<-" then (if |SplitSources(b)| == 0 then None else Some(Rule(SplitSources(b), a)))
            else (if |SplitSources(a)| == 0 then None else Some(Rule(SplitSources(a), b)))
  {
    SpacedSides(a, p, b);
    SplitRuleSides(Spaced(a, p, b), p, |a| + 1);
  }

  lemma LeftArrowSelected(t: string, j: string)
    requires Text.Free(t, "<-")
    ensures |t| + 1 + 2 <= |Spaced(t, "<-", j)|
    ensures TrySeparators(Spaced(t, "<-", j), Separators) == SplitRule(Spaced(t, "<-", j), "<-", |t| + 1)
  {
    FirstOccurrence(t, "<-", j);
    TryFirstPresent(Spaced(t, "<-", j), Separators, 0, |t| + 1);
  }

  lemma RightArrowSelected(j: string, t: string)
    requires Text.Free(j, "<-") && Text.Free(j, "->") && Text.Free(t, "<-")
    ensures |j| + 1 + 2 <= |Spaced(j, "->", t)|
    ensures TrySeparators(Spaced(j, "->", t), Separators) == SplitRule(Spaced(j, "->", t), "->", |j| + 1)
  {
    SpacedFree(j, "->", t, "<-");
    FirstOccurrence(j, "->", t);
    TryFirstPresent(Spaced(j, "->", t), Separators, 1, |j| + 1);
  }

  lemma EqualsSelected(j: string, t: string)
    requires Text.Free(j, "<-") && Text.Free(j, "->") && Text.Free(j, "=")
    requires Text.Free(t, "<-") && Text.Free(t, "->")
    ensures |j| + 1 + 1 <= |Spaced(j, "=", t)|
    ensures TrySeparators(Spaced(j, "=", t), Separators) == SplitRule(Spaced(j, "=", t), "=", |j| + 1)
  {
    SpacedFree(j, "=", t, "<-");
    SpacedFree(j, "=", t, "->");
    FirstOccurrence(j, "=", t);
    TryFirstPresent(Spaced(j, "=", t), Separators, 2, |j| + 1);
  }

  lemma ParseLeftArrow(t: string, j: string, sources: seq<string>)
    requires Sides(t, j) && Text.Free(t, "<-")
    requires |sources| > 0 && SplitSources(j) == sources
    ensures ParseLine(Spaced(t, "<-", j)) == Some(Rule(sources, t))
  {
    ParseSpaced(t, "<-", j);
    LeftArrowSelected(t, j);
    SplitSpaced(t, "<-", j);
  }

  lemma ParseRightArrow(j: string, t: string, sources: seq<string>)
    requires Sides(j, t) && Text.Free(j, "<-") && Text.Free(j, "->") && Text.Free(t, "<-")
    requires |sources| > 0 && SplitSources(j) == sources
    ensures ParseLine(Spaced(j, "->", t)) == Some(Rule(sources, t))
  {
    ParseSpaced(j, "->", t);
    RightArrowSelected(j, t);
    SplitSpaced(j, "->", t);
  }

  lemma ParseEquals(j: string, t: string, sources: seq<string>)
    requires Sides(j, t) && Text.Free(j, "<-") && Text.Free(j, "->") && Text.Free(j, "=")
    requires Text.Free(t, "<-") && Text.Free(t, "->")
    requires |sources| > 0 && SplitSources(j) == sources
    ensures ParseLine(Spaced(j, "=", t)) == Some(Rule(sources, t))
  {
    ParseSpaced(j, "=", t);
    EqualsSelected(j, t);
    SplitSpaced(j, "=", t);
  }

  /** The first separator present decides the split. */
  lemma {:induction false} TryFirstPresent(line: string, seps: seq<string>, k: nat, i: nat)
    requires k < |seps| && forall m | 0 <= m < k :: Text.Free(line, seps[m])
    requires Text.IndexOf(line, seps[k]) == Some(i)
    ensures i + |seps[k]| <= |line| && TrySeparators(line, seps) == SplitRule(line, seps[k], i)
    decreases k
  {
    if k > 0 {
      assert Text.IndexOf(line, seps[0]).None? by {
        assert Text.Free(line, seps[0]);
      }
      TryFirstPresent(line, seps[1..], k - 1, i);
    }
  }

  /** The rule a split gives, from its stripped sides. */
  lemma SplitRuleSides(line: string, sep: string, i: nat)
    requires i + |sep| <= |line|
    ensures var first := Text.Trim(line[..i]);
      var second := Text.Trim(line[i + |sep|..]);
      |first| > 0 && |second| > 0 ==>
        SplitRule(line, sep, i)
        == if sep == "<-" then (if |SplitSources(second)| == 0 then None else Some(Rule(SplitSources(second), first)))
           else (if |SplitSources(first)| == 0 then None else Some(Rule(SplitSources(first), second)))
  {
  }

  // ---------------------------------------------------------------------------
  // Loading rule files
  // ---------------------------------------------------------------------------

  /** The characters at which `str.splitlines` breaks a line. */
  const LineBreaks: set<char> :=
    {'\n', '\r', '\U{0B}', '\U{0C}', '\U{1C}', '\U{1D}', '\U{1E}', '\U{85}', '\U{2028}', '\U{2029}'}

  /** The defined results of `f` over `xs`, in order. */
  function Somes<T, U(==)>(f: T -> Option<U>, xs: seq<T>): (ys: seq<U>)
    ensures |ys| <= |xs|
    ensures EachFrom(f, ys, xs) && EveryKept(f, ys, xs)
    decreases |xs|
  {
    if |xs| == 0 then []
    else
      var rest := Somes(f, xs[1..]);
      SomesCons(f, xs, rest);
      if f(xs[0]).Some? then [f(xs[0]).value] + rest else rest
  }

  /** Every result is what `f` gives for one of the inputs. */
  predicate EachFrom<T, U(==)>(f: T -> Option<U>, ys: seq<U>, xs: seq<T>) {
    forall i | 0 <= i < |ys| :: exists j | 0 <= j < |xs| :: f(xs[j]) == Some(ys[i])
  }

  /** Every input for which `f` is defined contributes its result. */
  predicate EveryKept<T, U(==)>(f: T -> Option<U>, ys: seq<U>, xs: seq<T>) {
    forall j | 0 <= j < |xs| :: f(xs[j]).Some? ==> f(xs[j]).value in ys
  }

  lemma SomesCons<T, U>(f: T -> Option<U>, xs: seq<T>, rest: seq<U>)
    requires |xs| > 0 && EachFrom(f, rest, xs[1..]) && EveryKept(f, rest, xs[1..])
    ensures var ys := if f(xs[0]).Some? then [f(xs[0]).value] + rest else rest;
      EachFrom(f, ys, xs) && EveryKept(f, ys, xs)
  {
    var ys := if f(xs[0]).Some? then [f(xs[0]).value] + rest else rest;
    forall i | 0 <= i < |ys|
      ensures exists j | 0 <= j < |xs| :: f(xs[j]) == Some(ys[i])
    {
      if f(xs[0]).Some? && i == 0 {
        assert f(xs[0]) == Some(ys[0]);
      } else {
        var i' := if f(xs[0]).Some? then i - 1 else i;
        assert ys[i] == rest[i'];
        var j :| 0 <= j < |xs[1..]| && f(xs[1..][j]) == Some(rest[i']);
        assert xs[1..][j] == xs[j + 1];
      }
    }
    forall j | 0 <= j < |xs| && f(xs[j]).Some?
      ensures f(xs[j]).value in ys
    {
      if j > 0 {
        assert xs[1..][j - 1] == xs[j];
      }
    }
  }

  /** The results of consecutive runs of inputs follow one another. */
  lemma {:induction false} SomesAppend<T, U>(f: T -> Option<U>, a: seq<T>, b: seq<T>)
    ensures Somes(f, a + b) == Somes(f, a) + Somes(f, b)
    decreases |a|
  {
    if |a| == 0 {
      assert a + b == b;
    } else {
      assert (a + b)[0] == a[0];
      assert (a + b)[1..] == a[1..] + b;
      SomesAppend(f, a[1..], b);
    }
  }

  /**
   * The rules of the lines of a file: each rule is parsed from one of the
   * lines, every line that parses contributes its rule, and lines that give
   * no rule are skipped.
   */
  function RulesOfLines(lines: seq<string>): (rules: seq<Rule>)
    ensures |rules| <= |lines|
    ensures EachFrom(ParseLine, rules, lines) && EveryKept(ParseLine, rules, lines)
  {
    Somes(ParseLine, lines)
  }

  /** Rules keep line order: the rules of consecutive runs of lines follow one another. */
  lemma RulesOfLinesAppend(a: seq<string>, b: seq<string>)
    ensures RulesOfLines(a + b) == RulesOfLines(a) + RulesOfLines(b)
  {
    SomesAppend(ParseLine, a, b);
  }

  /** `_load_rules`: a missing or unreadable file contributes no rules. */
  function LoadRules(files: Settings.Files, p: Path): (rules: seq<Rule>)
    ensures p !in files ==> rules == []
    ensures p in files ==> var lines := Text.Split(files[p], LineBreaks);
      EachFrom(ParseLine, rules, lines) && EveryKept(ParseLine, rules, lines)
  {
    if p in files then RulesOfLines(Text.Split(files[p], LineBreaks)) else []
  }

  /** `_candidate_paths`: both file names in the working directory, then both in the config dir. */
  function CandidatePaths(cwd: Path, configDir: Path): (ps: seq<Path>)
    ensures |ps| == 2 * |SubstitutionFilenames|
    ensures forall i | 0 <= i < |SubstitutionFilenames| ::
              ps[i] == cwd + [SubstitutionFilenames[i]]
              && ps[|SubstitutionFilenames| + i] == configDir + [SubstitutionFilenames[i]]
  {
    seq(|SubstitutionFilenames|, i requires 0 <= i < |SubstitutionFilenames| => cwd + [SubstitutionFilenames[i]])
    + seq(|SubstitutionFilenames|, i requires 0 <= i < |SubstitutionFilenames| => configDir + [SubstitutionFilenames[i]])
  }

  /** The paths in order with every repeat after the first occurrence (or after `seen`) removed. */
  function DedupeFrom(ps: seq<Path>, seen: set<Path>): (r: seq<Path>)
    ensures forall i | 0 <= i < |r| :: r[i] in ps && r[i] !in seen
    ensures forall i, j | 0 <= i < j < |r| :: r[i] != r[j]
    ensures forall p | p in ps && p !in seen :: p in r
  {
    if |ps| == 0 then []
    else if ps[0] in seen then DedupeFrom(ps[1..], seen)
    else
      var rest := DedupeFrom(ps[1..], seen + {ps[0]});
      assert forall p | p in ps[1..] && p !in seen + {ps[0]} :: p in rest;
      [ps[0]] + rest
  }

  function Dedupe(ps: seq<Path>): seq<Path> {
    DedupeFrom(ps, {})
  }

  function RulesOfPaths(files: Settings.Files, ps: seq<Path>): seq<Rule> {
    if |ps| == 0 then [] else LoadRules(files, ps[0]) + RulesOfPaths(files, ps[1..])
  }

  lemma {:induction false} RulesOfPathsAppend(files: Settings.Files, a: seq<Path>, b: seq<Path>)
    ensures RulesOfPaths(files, a + b) == RulesOfPaths(files, a) + RulesOfPaths(files, b)
    decreases |a|
  {
    if |a| == 0 {
      assert a + b == b;
    } else {
      assert (a + b)[1..] == a[1..] + b;
      RulesOfPathsAppend(files, a[1..], b);
    }
  }

  lemma RulesOfPathsSnoc(files: Settings.Files, ps: seq<Path>, p: Path)
    ensures RulesOfPaths(files, ps + [p]) == RulesOfPaths(files, ps) + LoadRules(files, p)
  {
    RulesOfPathsAppend(files, ps, [p]);
    assert RulesOfPaths(files, [p]) == LoadRules(files, p) + RulesOfPaths(files, []);
  }

  lemma DedupeFromStep(ps: seq<Path>, seen: set<Path>)
    requires |ps| > 0
    ensures DedupeFrom(ps, seen)
         == if ps[0] in seen then DedupeFrom(ps[1..], seen) else [ps[0]] + DedupeFrom(ps[1..], seen + {ps[0]})
  {
  }

  /** One path further along the de-duplicated list: a seen path adds nothing, a new one is read next. */
  lemma DedupeAdvance(read: seq<Path>, rest: seq<Path>, seen: set<Path>, all: seq<Path>)
    requires |rest| > 0 && read + DedupeFrom(rest, seen) == all
    ensures rest[0] in seen ==> read + DedupeFrom(rest[1..], seen) == all
    ensures rest[0] !in seen ==> (read + [rest[0]]) + DedupeFrom(rest[1..], seen + {rest[0]}) == all
  {
    DedupeFromStep(rest, seen);
    if rest[0] !in seen {
      assert read + ([rest[0]] + DedupeFrom(rest[1..], seen + {rest[0]}))
          == (read + [rest[0]]) + DedupeFrom(rest[1..], seen + {rest[0]});
    }
  }

  lemma DedupeFacts(ps: seq<Path>)
    ensures var d := Dedupe(ps);
      (forall i, j | 0 <= i < j < |d| :: d[i] != d[j]) && (forall p | p in ps :: p in d)
  {
  }

  /**
   * `load_substitutions`: reads each candidate path at most once, in
   * candidate order, and concatenates the rules found.
   */
  method LoadSubstitutions(files: Settings.Files, cwd: Path, configDir: Path)
    returns (rules: seq<Rule>, read: seq<Path>)
    ensures read == Dedupe(CandidatePaths(cwd, configDir))
    ensures forall i, j | 0 <= i < j < |read| :: read[i] != read[j]
    ensures forall p | p in CandidatePaths(cwd, configDir) :: p in read
    ensures rules == RulesOfPaths(files, read)
  {
    var paths := CandidatePaths(cwd, configDir);
    rules, read := LoadFromPaths(files, paths);
    DedupeFacts(paths);
  }

  /** The loop of `load_substitutions`: skip a path already seen, otherwise read its rules. */
  method LoadFromPaths(files: Settings.Files, paths: seq<Path>) returns (rules: seq<Rule>, read: seq<Path>)
    ensures read == Dedupe(paths)
    ensures rules == RulesOfPaths(files, read)
  {
    rules := [];
    read := [];
    var seen: set<Path> := {};
    var i := 0;
    while i < |paths|
      invariant 0 <= i <= |paths|
      invariant read + DedupeFrom(paths[i..], seen) == Dedupe(paths)
      invariant rules == RulesOfPaths(files, read)
    {
      var path := paths[i];
      DedupeAdvance(read, paths[i..], seen, Dedupe(paths));
      assert paths[i..][1..] == paths[i + 1..];
      if path in seen {
        i := i + 1;
        continue;
      }
      seen := seen + {path};
      RulesOfPathsSnoc(files, read, path);
      rules := rules + LoadRules(files, path);
      read := read + [path];
      i := i + 1;
    }
    assert paths[i..] == [];
  }

  // ---------------------------------------------------------------------------
  // Applying rules
  // ---------------------------------------------------------------------------

  /** `pat` matches `s` at `i`, ignoring case. */
  predicate MatchAt(s: string, pat: string, i: nat) {
    i + |pat| <= |s| && Text.Lower(s[i..i + |pat|]) == Text.Lower(pat)
  }

  /** No case-insensitive occurrence of `pat` lies wholly inside `s`. */
  predicate NoMatch(s: string, pat: string) {
    forall i | 0 <= i <= |s| :: !MatchAt(s, pat, i)
  }

  /**
   * `re.sub(re.escape(pat), tgt, s, flags=re.IGNORECASE)`: every
   * case-insensitive occurrence, scanning left to right without overlap, is
   * replaced by the target.
   */
  function ReplaceAll(s: string, pat: string, tgt: string): (r: string)
    requires |pat| > 0
    ensures |r| == |s| + |Occurrences(s, pat).1| * (|tgt| - |pat|)
    decreases |s|
  {
    if |s| < |pat| then s
    else if MatchAt(s, pat, 0) then
      var rest := ReplaceAll(s[|pat|..], pat, tgt);
      OccurrencesAtMatch(s, pat);
      MulStep(|Occurrences(s[|pat|..], pat).1|, |tgt| - |pat|);
      tgt + rest
    else
      OccurrencesAtSkip(s, pat);
      [s[0]] + ReplaceAll(s[1..], pat, tgt)
  }

  lemma MulStep(n: nat, d: int)
    ensures (n + 1) * d == n * d + d
  {
  }

  /** Text without an occurrence of the pattern is left unchanged. */
  lemma {:induction false} ReplaceAllNoMatch(s: string, pat: string, tgt: string)
    requires |pat| > 0 && NoMatch(s, pat)
    ensures ReplaceAll(s, pat, tgt) == s
    decreases |s|
  {
    if |s| >= |pat| {
      assert !MatchAt(s, pat, 0);
      forall i | 0 <= i <= |s[1..]|
        ensures !MatchAt(s[1..], pat, i)
      {
        assert !MatchAt(s, pat, i + 1);
        if i + |pat| <= |s[1..]| {
          assert s[1..][i..i + |pat|] == s[i + 1..i + 1 + |pat|];
        }
      }
      ReplaceAllNoMatch(s[1..], pat, tgt);
      assert [s[0]] + s[1..] == s;
    }
  }

  /** Only the pattern's lower-cased form matters. */
  lemma {:induction false} ReplaceAllIgnoresPatternCase(s: string, pat: string, pat': string, tgt: string)
    requires |pat| > 0 && Text.Lower(pat) == Text.Lower(pat')
    ensures ReplaceAll(s, pat, tgt) == ReplaceAll(s, pat', tgt)
    decreases |s|
  {
    assert |pat| == |pat'|;
    if |s| >= |pat| {
      ReplaceAllIgnoresPatternCase(s[|pat|..], pat, pat', tgt);
      ReplaceAllIgnoresPatternCase(s[1..], pat, pat', tgt);
    }
  }

  /** `gaps[0] + fill[0] + gaps[1] + ... + gaps[n]`. */
  function Weave(gaps: seq<string>, fill: seq<string>): string
    requires |gaps| == |fill| + 1
  {
    if |fill| == 0 then gaps[0] else gaps[0] + fill[0] + Weave(gaps[1..], fill[1..])
  }

  /** The text between replaced occurrences, and the occurrences themselves. */
  function Occurrences(s: string, pat: string): (d: (seq<string>, seq<string>))
    requires |pat| > 0
    ensures |d.0| == |d.1| + 1
    decreases |s|
  {
    if |s| < |pat| then ([s], [])
    else if MatchAt(s, pat, 0) then
      var rest := Occurrences(s[|pat|..], pat);
      ([""] + rest.0, [s[..|pat|]] + rest.1)
    else
      var rest := Occurrences(s[1..], pat);
      ([[s[0]] + rest.0[0]] + rest.0[1..], rest.1)
  }

  function Copies(n: nat, t: string): (r: seq<string>)
    ensures |r| == n && forall i | 0 <= i < n :: r[i] == t
  {
    seq(n, _ => t)
  }

  lemma {:induction false} WeaveFirstGap(c: char, gaps: seq<string>, fill: seq<string>)
    requires |gaps| == |fill| + 1
    ensures Weave([[c] + gaps[0]] + gaps[1..], fill) == [c] + Weave(gaps, fill)
  {
    var g := [[c] + gaps[0]] + gaps[1..];
    assert g[1..] == gaps[1..];
  }

  /** A gap extended by one character in front still holds no match, when the text there did not match. */
  lemma GapStillClear(s: string, pat: string, g: string)
    requires |pat| > 0 && |s| >= |pat|
    requires !MatchAt(s, pat, 0)
    requires NoMatch(g, pat)
    requires g <= s[1..]
    ensures NoMatch([s[0]] + g, pat)
  {
    var g' := [s[0]] + g;
    forall i | 0 <= i <= |g'|
      ensures !MatchAt(g', pat, i)
    {
      if i + |pat| <= |g'| {
        if i == 0 {
          assert g'[..|pat|] == s[..|pat|];
        } else {
          assert g'[i..i + |pat|] == g[i - 1..i - 1 + |pat|];
          assert !MatchAt(g, pat, i - 1);
        }
      }
    }
  }

  lemma {:induction false} WeavePrefix(gaps: seq<string>, fill: seq<string>)
    requires |gaps| == |fill| + 1
    ensures gaps[0] <= Weave(gaps, fill)
  {
  }

  /**
   * What replacement does: the text splits into gaps and case-insensitive
   * occurrences of the pattern, no occurrence lies wholly inside a gap or
   * starts inside one (so each occurrence is the leftmost one after the
   * previous), and the result is the same gaps with each occurrence replaced
   * by the target.
   */
  lemma {:induction false} ReplaceAllReplacesOccurrences(s: string, pat: string, tgt: string)
    requires |pat| > 0
    ensures var (gaps, ms) := Occurrences(s, pat);
      && s == Weave(gaps, ms)
      && ReplaceAll(s, pat, tgt) == Weave(gaps, Copies(|ms|, tgt))
      && AllMatch(ms, pat)
      && AllClear(gaps, pat)
      && Leftmost(gaps, ms, pat)
  {
    OccurrencesRebuild(s, pat);
    OccurrencesReplaced(s, pat, tgt);
    OccurrencesMatch(s, pat);
    OccurrencesGapsClear(s, pat);
    OccurrencesLeftmost(s, pat);
  }

  /** Reading on from any gap, no occurrence of the pattern starts before the gap ends. */
  predicate Leftmost(gaps: seq<string>, ms: seq<string>, pat: string)
    requires |gaps| == |ms| + 1
  {
    forall i, k | 0 <= i < |gaps| && 0 <= k < |gaps[i]| :: !MatchAt(Weave(gaps[i..], ms[i..]), pat, k)
  }

  /** A match one character further on is a match in the text after its first character. */
  lemma MatchShift(s: string, pat: string, k: nat)
    requires |s| > 0 && k >= 1
    ensures MatchAt(s, pat, k) == MatchAt(s[1..], pat, k - 1)
  {
    if k + |pat| <= |s| {
      assert s[1..][k - 1..k - 1 + |pat|] == s[k..k + |pat|];
    }
  }

  /** The occurrences found are leftmost-first: none starts inside a gap. */
  lemma {:induction false} OccurrencesLeftmost(s: string, pat: string)
    requires |pat| > 0
    ensures Leftmost(Occurrences(s, pat).0, Occurrences(s, pat).1, pat)
    decreases |s|
  {
    if |s| < |pat| {
      LeftmostShort(s, pat);
    } else if MatchAt(s, pat, 0) {
      OccurrencesLeftmost(s[|pat|..], pat);
      LeftmostAfterMatch(s, pat);
    } else {
      OccurrencesLeftmost(s[1..], pat);
      OccurrencesRebuild(s[1..], pat);
      LeftmostAfterSkip(s, pat);
    }
  }

  lemma LeftmostShort(s: string, pat: string)
    requires |pat| > 0 && |s| < |pat|
    ensures Leftmost(Occurrences(s, pat).0, Occurrences(s, pat).1, pat)
  {
    var (g, m) := Occurrences(s, pat);
    assert g == [s] && m == [];
    assert g[0..] == g && m[0..] == m;
  }

  lemma LeftmostAfterMatch(s: string, pat: string)
    requires |pat| > 0 && |s| >= |pat| && MatchAt(s, pat, 0)
    requires Leftmost(Occurrences(s[|pat|..], pat).0, Occurrences(s[|pat|..], pat).1, pat)
    ensures Leftmost(Occurrences(s, pat).0, Occurrences(s, pat).1, pat)
  {
    var (g, m) := Occurrences(s[|pat|..], pat);
    OccurrencesAtMatch(s, pat);
    var G, M := [""] + g, [s[..|pat|]] + m;
    forall i, k | 0 <= i < |G| && 0 <= k < |G[i]|
      ensures !MatchAt(Weave(G[i..], M[i..]), pat, k)
    {
      assert i > 0;
      assert G[i..] == g[i - 1..] && M[i..] == m[i - 1..] && G[i] == g[i - 1];
    }
  }

  lemma LeftmostAfterSkip(s: string, pat: string)
    requires |pat| > 0 && |s| >= |pat| && !MatchAt(s, pat, 0)
    requires Leftmost(Occurrences(s[1..], pat).0, Occurrences(s[1..], pat).1, pat)
    requires s[1..] == Weave(Occurrences(s[1..], pat).0, Occurrences(s[1..], pat).1)
    ensures Leftmost(Occurrences(s, pat).0, Occurrences(s, pat).1, pat)
  {
    var (g, m) := Occurrences(s[1..], pat);
    var G := [[s[0]] + g[0]] + g[1..];
    OccurrencesAtSkip(s, pat);
    forall i, k | 0 <= i < |G| && 0 <= k < |G[i]|
      ensures !MatchAt(Weave(G[i..], m[i..]), pat, k)
    {
      if i == 0 {
        LeftmostFirstGap(s, pat, g, m, k);
      } else {
        assert G[i..] == g[i..] && G[i] == g[i];
      }
    }
  }

  /** Inside the first gap, extended by the skipped character, no match starts. */
  lemma LeftmostFirstGap(s: string, pat: string, g: seq<string>, m: seq<string>, k: nat)
    requires |pat| > 0 && |s| > 0 && !MatchAt(s, pat, 0)
    requires |g| == |m| + 1 && s[1..] == Weave(g, m) && Leftmost(g, m, pat)
    requires k < 1 + |g[0]|
    ensures var G := [[s[0]] + g[0]] + g[1..]; !MatchAt(Weave(G[0..], m[0..]), pat, k)
  {
    var G := [[s[0]] + g[0]] + g[1..];
    assert G[0..] == G && m[0..] == m;
    WeaveFirstGap(s[0], g, m);
    assert [s[0]] + s[1..] == s;
    if k > 0 {
      assert g[0..] == g;
      assert !MatchAt(Weave(g[0..], m[0..]), pat, k - 1);
      MatchShift(s, pat, k);
    }
  }

  /**
   * The occurrences are the only leftmost-first split: any way of writing
   * the text as gaps and case-insensitive occurrences in which no occurrence
   * starts inside a gap is the one `Occurrences` finds.
   */
  lemma {:induction false} OccurrencesUnique(s: string, pat: string, gaps: seq<string>, ms: seq<string>)
    requires |pat| > 0 && |gaps| == |ms| + 1
    requires s == Weave(gaps, ms) && AllMatch(ms, pat) && Leftmost(gaps, ms, pat)
    ensures Occurrences(s, pat) == (gaps, ms)
    decreases |s|
  {
    if |gaps[0]| > 0 {
      if |s| < |pat| {
        UniqueShort(s, pat, gaps, ms);
      } else {
        var g' := UniqueSkipStep(s, pat, gaps, ms);
        OccurrencesUnique(s[1..], pat, g', ms);
        UniqueSkip(s, pat, gaps, ms, g');
      }
    } else if |ms| == 0 {
      assert gaps == [gaps[0]];
    } else {
      UniqueMatchStep(s, pat, gaps, ms);
      OccurrencesUnique(s[|pat|..], pat, gaps[1..], ms[1..]);
      UniqueMatch(s, pat, gaps, ms);
    }
  }

  /** The text is at least as long as its first gap and first occurrence. */
  lemma WeaveLength(gaps: seq<string>, ms: seq<string>)
    requires |gaps| == |ms| + 1 && |ms| > 0
    ensures |Weave(gaps, ms)| >= |gaps[0]| + |ms[0]|
  {
  }

  lemma UniqueShort(s: string, pat: string, gaps: seq<string>, ms: seq<string>)
    requires |pat| > 0 && |gaps| == |ms| + 1 && |s| < |pat|
    requires s == Weave(gaps, ms) && AllMatch(ms, pat)
    ensures Occurrences(s, pat) == (gaps, ms)
  {
    if |ms| > 0 {
      WeaveLength(gaps, ms);
      assert false;
    }
    assert gaps == [s];
  }

  /** Dropping the first character of a non-empty first gap keeps the split leftmost-first. */
  lemma UniqueSkipStep(s: string, pat: string, gaps: seq<string>, ms: seq<string>) returns (g': seq<string>)
    requires |pat| > 0 && |gaps| == |ms| + 1 && |gaps[0]| > 0
    requires s == Weave(gaps, ms) && Leftmost(gaps, ms, pat)
    ensures g' == [gaps[0][1..]] + gaps[1..]
    ensures |s| > 0 && s[0] == gaps[0][0] && s[1..] == Weave(g', ms) && Leftmost(g', ms, pat)
    ensures !MatchAt(s, pat, 0)
  {
    g' := [gaps[0][1..]] + gaps[1..];
    assert g'[0] == gaps[0][1..] && g'[1..] == gaps[1..];
    assert [gaps[0][0]] + gaps[0][1..] == gaps[0];
    assert [[gaps[0][0]] + g'[0]] + g'[1..] == gaps;
    WeaveFirstGap(gaps[0][0], g', ms);
    assert gaps[0..] == gaps && ms[0..] == ms;
    forall i, k | 0 <= i < |g'| && 0 <= k < |g'[i]|
      ensures !MatchAt(Weave(g'[i..], ms[i..]), pat, k)
    {
      if i == 0 {
        assert g'[0..] == g' && ms[0..] == ms;
        assert !MatchAt(Weave(gaps[0..], ms[0..]), pat, k + 1);
        MatchShift(s, pat, k + 1);
      } else {
        assert g'[i..] == gaps[i..] && g'[i] == gaps[i];
      }
    }
  }

  lemma UniqueSkip(s: string, pat: string, gaps: seq<string>, ms: seq<string>, g': seq<string>)
    requires |pat| > 0 && |gaps| == |ms| + 1 && |gaps[0]| > 0 && |s| >= |pat| && !MatchAt(s, pat, 0)
    requires g' == [gaps[0][1..]] + gaps[1..]
    requires s[0] == gaps[0][0] && Occurrences(s[1..], pat) == (g', ms)
    ensures Occurrences(s, pat) == (gaps, ms)
  {
    OccurrencesAtSkip(s, pat);
    assert g'[0] == gaps[0][1..] && g'[1..] == gaps[1..];
    assert [gaps[0][0]] + gaps[0][1..] == gaps[0];
    assert [[s[0]] + g'[0]] + g'[1..] == gaps;
  }

  /** Without a match at the front, the first character joins the first gap. */
  lemma OccurrencesAtSkip(s: string, pat: string)
    requires |pat| > 0 && |s| >= |pat| && !MatchAt(s, pat, 0)
    ensures var (g, m) := Occurrences(s[1..], pat);
      Occurrences(s, pat) == ([[s[0]] + g[0]] + g[1..], m)
  {
  }

  /** After an empty first gap, the text starts with the first occurrence and the rest is leftmost-first. */
  lemma UniqueMatchStep(s: string, pat: string, gaps: seq<string>, ms: seq<string>)
    requires |pat| > 0 && |gaps| == |ms| + 1 && |gaps[0]| == 0 && |ms| > 0
    requires s == Weave(gaps, ms) && AllMatch(ms, pat) && Leftmost(gaps, ms, pat)
    ensures |s| >= |pat| && s[..|pat|] == ms[0] && MatchAt(s, pat, 0)
    ensures s[|pat|..] == Weave(gaps[1..], ms[1..])
    ensures AllMatch(ms[1..], pat) && Leftmost(gaps[1..], ms[1..], pat)
  {
    assert |Text.Lower(ms[0])| == |Text.Lower(pat)|;
    assert s == gaps[0] + ms[0] + Weave(gaps[1..], ms[1..]);
    assert gaps[0] + ms[0] == ms[0];
    assert s[..|pat|] == ms[0];
    assert s[|pat|..] == Weave(gaps[1..], ms[1..]);
    forall i | 0 <= i < |ms[1..]| ensures Text.Lower(ms[1..][i]) == Text.Lower(pat) {
      assert ms[1..][i] == ms[i + 1];
    }
    forall i, k | 0 <= i < |gaps[1..]| && 0 <= k < |gaps[1..][i]|
      ensures !MatchAt(Weave(gaps[1..][i..], ms[1..][i..]), pat, k)
    {
      assert gaps[1..][i..] == gaps[i + 1..] && ms[1..][i..] == ms[i + 1..] && gaps[1..][i] == gaps[i + 1];
    }
  }

  lemma UniqueMatch(s: string, pat: string, gaps: seq<string>, ms: seq<string>)
    requires |pat| > 0 && |gaps| == |ms| + 1 && |gaps[0]| == 0 && |ms| > 0
    requires |s| >= |pat| && s[..|pat|] == ms[0] && MatchAt(s, pat, 0)
    requires Occurrences(s[|pat|..], pat) == (gaps[1..], ms[1..])
    ensures Occurrences(s, pat) == (gaps, ms)
  {
    OccurrencesAtMatch(s, pat);
    assert [""] + gaps[1..] == gaps;
    assert [ms[0]] + ms[1..] == ms;
  }

  /** Weaving the gaps with the occurrences gives the text back. */
  lemma {:induction false} OccurrencesRebuild(s: string, pat: string)
    requires |pat| > 0
    ensures s == Weave(Occurrences(s, pat).0, Occurrences(s, pat).1)
    decreases |s|
  {
    if |s| >= |pat| {
      if MatchAt(s, pat, 0) {
        OccurrencesRebuild(s[|pat|..], pat);
        RebuildAfterMatch(s, pat);
      } else {
        OccurrencesRebuild(s[1..], pat);
        RebuildAfterSkip(s, pat);
      }
    }
  }

  lemma RebuildAfterMatch(s: string, pat: string)
    requires |pat| > 0 && |s| >= |pat| && MatchAt(s, pat, 0)
    requires s[|pat|..] == Weave(Occurrences(s[|pat|..], pat).0, Occurrences(s[|pat|..], pat).1)
    ensures s == Weave(Occurrences(s, pat).0, Occurrences(s, pat).1)
  {
    var d := Occurrences(s[|pat|..], pat);
    OccurrencesAtMatch(s, pat);
    WeaveEmptyGap(s[..|pat|], d.0, d.1);
    SplitAtJoin(s, |pat|);
  }

  lemma SplitAtJoin(s: string, k: nat)
    requires k <= |s|
    ensures s[..k] + s[k..] == s
  {
  }

  /** A match at the front is the first occurrence, after an empty gap. */
  lemma OccurrencesAtMatch(s: string, pat: string)
    requires |pat| > 0 && |s| >= |pat| && MatchAt(s, pat, 0)
    ensures Occurrences(s, pat)
         == ([""] + Occurrences(s[|pat|..], pat).0, [s[..|pat|]] + Occurrences(s[|pat|..], pat).1)
  {
  }

  lemma WeaveEmptyGap(x: string, gaps: seq<string>, fill: seq<string>)
    requires |gaps| == |fill| + 1
    ensures Weave([""] + gaps, [x] + fill) == x + Weave(gaps, fill)
  {
    var g2, f2 := [""] + gaps, [x] + fill;
    assert g2[0] == "" && f2[0] == x;
    assert g2[1..] == gaps;
    assert f2[1..] == fill;
    assert Weave(g2, f2) == "" + x + Weave(gaps, fill);
    assert "" + x == x;
  }

  lemma RebuildAfterSkip(s: string, pat: string)
    requires |pat| > 0 && |s| >= |pat| && !MatchAt(s, pat, 0)
    requires s[1..] == Weave(Occurrences(s[1..], pat).0, Occurrences(s[1..], pat).1)
    ensures s == Weave(Occurrences(s, pat).0, Occurrences(s, pat).1)
  {
    var (g, m) := Occurrences(s[1..], pat);
    assert Occurrences(s, pat) == ([[s[0]] + g[0]] + g[1..], m);
    WeaveFirstGap(s[0], g, m);
    assert [s[0]] + s[1..] == s;
  }

  /** Replacement weaves the same gaps with the target in place of each occurrence. */
  lemma {:induction false} OccurrencesReplaced(s: string, pat: string, tgt: string)
    requires |pat| > 0
    ensures ReplaceAll(s, pat, tgt) == Weave(Occurrences(s, pat).0, Copies(|Occurrences(s, pat).1|, tgt))
    decreases |s|
  {
    if |s| >= |pat| {
      if MatchAt(s, pat, 0) {
        OccurrencesReplaced(s[|pat|..], pat, tgt);
        ReplacedAfterMatch(s, pat, tgt);
      } else {
        OccurrencesReplaced(s[1..], pat, tgt);
        ReplacedAfterSkip(s, pat, tgt);
      }
    }
  }

  lemma ReplacedAfterMatch(s: string, pat: string, tgt: string)
    requires |pat| > 0 && |s| >= |pat| && MatchAt(s, pat, 0)
    requires ReplaceAll(s[|pat|..], pat, tgt)
          == Weave(Occurrences(s[|pat|..], pat).0, Copies(|Occurrences(s[|pat|..], pat).1|, tgt))
    ensures ReplaceAll(s, pat, tgt) == Weave(Occurrences(s, pat).0, Copies(|Occurrences(s, pat).1|, tgt))
  {
    var d := Occurrences(s[|pat|..], pat);
    OccurrencesAtMatch(s, pat);
    assert ReplaceAll(s, pat, tgt) == tgt + ReplaceAll(s[|pat|..], pat, tgt);
    assert Copies(|d.1| + 1, tgt) == [tgt] + Copies(|d.1|, tgt);
    WeaveEmptyGap(tgt, d.0, Copies(|d.1|, tgt));
  }

  lemma ReplacedAfterSkip(s: string, pat: string, tgt: string)
    requires |pat| > 0 && |s| >= |pat| && !MatchAt(s, pat, 0)
    requires ReplaceAll(s[1..], pat, tgt)
          == Weave(Occurrences(s[1..], pat).0, Copies(|Occurrences(s[1..], pat).1|, tgt))
    ensures ReplaceAll(s, pat, tgt) == Weave(Occurrences(s, pat).0, Copies(|Occurrences(s, pat).1|, tgt))
  {
    var (g, m) := Occurrences(s[1..], pat);
    assert Occurrences(s, pat) == ([[s[0]] + g[0]] + g[1..], m);
    assert ReplaceAll(s, pat, tgt) == [s[0]] + ReplaceAll(s[1..], pat, tgt);
    WeaveFirstGap(s[0], g, Copies(|m|, tgt));
  }

  /** Every piece equals the pattern up to case. */
  predicate AllMatch(ms: seq<string>, pat: string) {
    forall i | 0 <= i < |ms| :: Text.Lower(ms[i]) == Text.Lower(pat)
  }

  /** No piece holds an occurrence of the pattern. */
  predicate AllClear(gaps: seq<string>, pat: string) {
    forall i | 0 <= i < |gaps| :: NoMatch(gaps[i], pat)
  }

  /** Every occurrence equals the pattern up to case. */
  lemma {:induction false} OccurrencesMatch(s: string, pat: string)
    requires |pat| > 0
    ensures AllMatch(Occurrences(s, pat).1, pat)
    decreases |s|
  {
    if |s| >= |pat| {
      if MatchAt(s, pat, 0) {
        var rest := s[|pat|..];
        OccurrencesMatch(rest, pat);
        var m := Occurrences(rest, pat).1;
        var ms := Occurrences(s, pat).1;
        assert ms == [s[..|pat|]] + m;
        forall i | 0 <= i < |ms|
          ensures Text.Lower(ms[i]) == Text.Lower(pat)
        {
          if i > 0 {
            assert ms[i] == m[i - 1];
          }
        }
      } else {
        OccurrencesMatch(s[1..], pat);
      }
    }
  }

  /** No occurrence of the pattern lies wholly inside a gap. */
  lemma {:induction false} OccurrencesGapsClear(s: string, pat: string)
    requires |pat| > 0
    ensures AllClear(Occurrences(s, pat).0, pat)
    decreases |s|
  {
    if |s| < |pat| {
      assert Occurrences(s, pat).0 == [s];
      forall i | 0 <= i <= |s| ensures !MatchAt(s, pat, i) { }
    } else if MatchAt(s, pat, 0) {
      OccurrencesGapsClear(s[|pat|..], pat);
      GapsClearAfterMatch(s, pat);
    } else {
      OccurrencesGapsClear(s[1..], pat);
      GapsClearAfterSkip(s, pat);
    }
  }

  lemma GapsClearAfterMatch(s: string, pat: string)
    requires |pat| > 0 && |s| >= |pat| && MatchAt(s, pat, 0)
    requires AllClear(Occurrences(s[|pat|..], pat).0, pat)
    ensures AllClear(Occurrences(s, pat).0, pat)
  {
    OccurrencesAtMatch(s, pat);
    forall i | 0 <= i <= 0 ensures !MatchAt("", pat, i) { }
    AllClearCons("", Occurrences(s[|pat|..], pat).0, pat);
  }

  lemma GapsClearAfterSkip(s: string, pat: string)
    requires |pat| > 0 && |s| >= |pat| && !MatchAt(s, pat, 0)
    requires AllClear(Occurrences(s[1..], pat).0, pat)
    ensures AllClear(Occurrences(s, pat).0, pat)
  {
    var (g, m) := Occurrences(s[1..], pat);
    assert Occurrences(s, pat) == ([[s[0]] + g[0]] + g[1..], m);
    OccurrencesRebuild(s[1..], pat);
    WeavePrefix(g, m);
    assert NoMatch(g[0], pat);
    GapStillClear(s, pat, g[0]);
    AllClearTail(g, pat);
    AllClearCons([s[0]] + g[0], g[1..], pat);
  }

  lemma AllClearCons(x: string, gaps: seq<string>, pat: string)
    requires NoMatch(x, pat) && AllClear(gaps, pat)
    ensures AllClear([x] + gaps, pat)
  {
    forall i | 0 <= i < |[x] + gaps|
      ensures NoMatch(([x] + gaps)[i], pat)
    {
      if i > 0 {
        assert ([x] + gaps)[i] == gaps[i - 1];
      }
    }
  }

  lemma AllClearTail(gaps: seq<string>, pat: string)
    requires |gaps| > 0 && AllClear(gaps, pat)
    ensures AllClear(gaps[1..], pat)
  {
    forall i | 0 <= i < |gaps[1..]|
      ensures NoMatch(gaps[1..][i], pat)
    {
      assert gaps[1..][i] == gaps[i + 1];
    }
  }

  /** A rule with an empty target is skipped; otherwise each non-empty source is replaced in turn. */
  function ApplyRule(text: string, rule: Rule): (r: string)
    ensures |rule.target| == 0 ==> r == text
    ensures |rule.target| > 0 ==> r == ApplySources(text, rule.sources, rule.target)
    ensures (forall k | 0 <= k < |rule.sources| :: |rule.sources[k]| == 0) ==> r == text
  {
    if |rule.target| == 0 then text else ApplySources(text, rule.sources, rule.target)
  }

  /** Each non-empty source in turn is replaced by the target; empty sources are skipped. */
  function ApplySources(text: string, sources: seq<string>, target: string): (r: string)
    ensures (forall k | 0 <= k < |sources| :: |sources[k]| == 0) ==> r == text
    ensures |sources| > 0 ==>
      r == ApplySources(if |sources[0]| == 0 then text else ReplaceAll(text, sources[0], target), sources[1..], target)
    decreases |sources|
  {
    if |sources| == 0 then text
    else
      var next := if |sources[0]| == 0 then text else ReplaceAll(text, sources[0], target);
      ApplySources(next, sources[1..], target)
  }

  /** The rules in order, each applied to the result of the ones before. */
  function ApplyRules(text: string, rules: seq<Rule>): (r: string)
    ensures (forall i | 0 <= i < |rules| :: |rules[i].target| == 0) ==> r == text
    ensures |rules| == 1 ==> r == ApplyRule(text, rules[0])
    decreases |rules|
  {
    if |rules| == 0 then text else ApplyRules(ApplyRule(text, rules[0]), rules[1..])
  }

  /** `apply_substitutions` with its rules given: empty text or no rules leave the text as it is. */
  function ApplySubstitutions(text: string, rules: seq<Rule>): (r: string)
    ensures |text| == 0 ==> r == text
    ensures |rules| == 0 ==> r == text
  {
    if |text| == 0 then text
    else if |rules| == 0 then text
    else ApplyRules(text, rules)
  }

  /** A rule none of whose sources occurs in the text leaves the text as it is. */
  lemma {:induction false} ApplySourcesNoMatch(text: string, sources: seq<string>, target: string)
    requires forall k | 0 <= k < |sources| :: |sources[k]| > 0 ==> NoMatch(text, sources[k])
    ensures ApplySources(text, sources, target) == text
    decreases |sources|
  {
    if |sources| > 0 {
      if |sources[0]| > 0 {
        ReplaceAllNoMatch(text, sources[0], target);
      }
      ApplySourcesNoMatch(text, sources[1..], target);
    }
  }

  /** Text in which no source of any rule occurs comes back unchanged. */
  lemma {:induction false} ApplyRulesNoMatch(text: string, rules: seq<Rule>)
    requires forall r, k | 0 <= r < |rules| && 0 <= k < |rules[r].sources| ::
               |rules[r].sources[k]| > 0 ==> NoMatch(text, rules[r].sources[k])
    ensures ApplySubstitutions(text, rules) == text
  {
    if |text| > 0 && |rules| > 0 {
      ApplyRulesNoMatchFrom(text, rules);
    }
  }

  lemma {:induction false} ApplyRulesNoMatchFrom(text: string, rules: seq<Rule>)
    requires forall r, k | 0 <= r < |rules| && 0 <= k < |rules[r].sources| ::
               |rules[r].sources[k]| > 0 ==> NoMatch(text, rules[r].sources[k])
    ensures ApplyRules(text, rules) == text
    decreases |rules|
  {
    if |rules| > 0 {
      if |rules[0].target| > 0 {
        ApplySourcesNoMatch(text, rules[0].sources, rules[0].target);
      }
      assert forall r, k | 0 <= r < |rules[1..]| && 0 <= k < |rules[1..][r].sources| ::
               rules[1..][r].sources[k] == rules[r + 1].sources[k];
      ApplyRulesNoMatchFrom(text, rules[1..]);
    }
  }

  lemma {:induction false} ReplaceAllEmpty(pat: string, tgt: string)
    requires |pat| > 0
    ensures ReplaceAll("", pat, tgt) == ""
  {
  }

  lemma {:induction false} ApplySourcesEmpty(sources: seq<string>, target: string)
    ensures ApplySources("", sources, target) == ""
    decreases |sources|
  {
    if |sources| > 0 {
      if |sources[0]| > 0 {
        ReplaceAllEmpty(sources[0], target);
      }
      ApplySourcesEmpty(sources[1..], target);
    }
  }

  lemma {:induction false} ApplyRulesEmpty(rules: seq<Rule>)
    ensures ApplyRules("", rules) == ""
    decreases |rules|
  {
    if |rules| > 0 {
      ApplySourcesEmpty(rules[0].sources, rules[0].target);
      ApplyRulesEmpty(rules[1..]);
    }
  }

  /** The sources of a rule apply in order: later sources see what earlier ones produced. */
  lemma {:induction false} ApplySourcesAppend(text: string, a: seq<string>, b: seq<string>, target: string)
    ensures ApplySources(text, a + b, target) == ApplySources(ApplySources(text, a, target), b, target)
    decreases |a|
  {
    if |a| == 0 {
      assert a + b == b;
    } else {
      assert (a + b)[0] == a[0];
      assert (a + b)[1..] == a[1..] + b;
      var next := if |a[0]| == 0 then text else ReplaceAll(text, a[0], target);
      ApplySourcesAppend(next, a[1..], b, target);
    }
  }

  lemma {:induction false} ApplyRulesAppend(text: string, a: seq<Rule>, b: seq<Rule>)
    ensures ApplyRules(text, a + b) == ApplyRules(ApplyRules(text, a), b)
    decreases |a|
  {
    if |a| == 0 {
      assert a + b == b;
    } else {
      assert (a + b)[0] == a[0];
      assert (a + b)[1..] == a[1..] + b;
      ApplyRulesAppend(ApplyRule(text, a[0]), a[1..], b);
    }
  }

  /**
   * On non-empty text, a rule list of one rule applies exactly that rule:
   * with a target, every one of its sources in turn.
   */
  lemma ApplyOneRule(text: string, rule: Rule)
    requires |text| > 0
    ensures ApplySubstitutions(text, [rule]) == ApplyRule(text, rule)
    ensures |rule.target| > 0 ==> ApplySubstitutions(text, [rule]) == ApplySources(text, rule.sources, rule.target)
  {
  }

  /** A single rule with one source replaces that source in the text, as `ReplaceAll` does. */
  lemma ApplySingleRule(text: string, src: string, tgt: string)
    requires |text| > 0 && |src| > 0 && |tgt| > 0
    ensures ApplySubstitutions(text, [Rule([src], tgt)]) == ReplaceAll(text, src, tgt)
  {
    var rules := [Rule([src], tgt)];
    assert rules[1..] == [];
    assert [src][1..] == [];
  }

  /**
   * Applying a single rule: for any split of the text into gaps and
   * case-insensitive occurrences of the source, with no occurrence starting
   * inside a gap, the result is the same gaps with the target in place of
   * each occurrence.
   */
  lemma ApplyOneRuleReplaces(text: string, src: string, tgt: string, gaps: seq<string>, ms: seq<string>)
    requires |text| > 0 && |src| > 0 && |tgt| > 0 && |gaps| == |ms| + 1
    requires text == Weave(gaps, ms) && AllMatch(ms, src) && Leftmost(gaps, ms, src)
    ensures ApplySubstitutions(text, [Rule([src], tgt)]) == Weave(gaps, Copies(|ms|, tgt))
  {
    ApplySingleRule(text, src, tgt);
    OccurrencesUnique(text, src, gaps, ms);
    ReplaceAllReplacesOccurrences(text, src, tgt);
  }

  /** Rules apply in order: later rules see what earlier rules produced. */
  lemma ApplyInOrder(text: string, first: seq<Rule>, later: seq<Rule>)
    ensures ApplySubstitutions(text, first + later)
         == ApplySubstitutions(ApplySubstitutions(text, first), later)
  {
    if |text| > 0 && |first| > 0 && |later| > 0 {
      ApplyRulesAppend(text, first, later);
      if ApplyRules(text, first) == "" {
        ApplyRulesEmpty(later);
      }
    } else if |later| == 0 {
      assert first + later == first;
    } else if |first| == 0 {
      assert first + later == later;
    }
  }
}

=== FILE: text.dfy ===
/**
 * String helpers standing in for the Python `str` methods the application uses:
 * `strip`, `lower`, `in`/`find`, `re.split` on a character class, `str(int)`.
 * Whitespace and case are ASCII-only.
 */
module Text {
  import opened Wrappers

  // ---------------------------------------------------------------------------
  // Whitespace and strip()
  // ---------------------------------------------------------------------------

  /** The ASCII characters for which Python's `str.isspace()` holds. */
  predicate IsSpace(c: char) {
    c == ' ' || c == '\t' || c == '\n' || c == '\r' || c == '\U{0B}' || c == '\U{0C}'
    || ('\U{1C}' <= c <= '\U{1F}')
  }

  /** Neither end of `s` is whitespace: `s.strip() == s`. */
  predicate IsTrimmed(s: string) {
    |s| == 0 || (!IsSpace(s[0]) && !IsSpace(s[|s| - 1]))
  }

  predicate AllSpace(s: string) {
    forall k | 0 <= k < |s| :: IsSpace(s[k])
  }

  /** `s.lstrip()`: the suffix left after dropping leading whitespace. */
  function TrimStart(s: string): (r: string)
    ensures |r| <= |s| && r == s[|s| - |r|..]
    ensures AllSpace(s[..|s| - |r|])
    ensures |r| > 0 ==> !IsSpace(r[0])
    decreases |s|
  {
    if |s| > 0 && IsSpace(s[0]) then TrimStart(s[1..]) else s
  }

  /** `s.rstrip()`: the prefix left after dropping trailing whitespace. */
  function TrimEnd(s: string): (r: string)
    ensures |r| <= |s| && r == s[..|r|]
    ensures AllSpace(s[|r|..])
    ensures |r| > 0 ==> !IsSpace(r[|r| - 1])
    decreases |s|
  {
    if |s| > 0 && IsSpace(s[|s| - 1]) then TrimEnd(s[..|s| - 1]) else s
  }

  /** `r` is `s` with some whitespace, and nothing else, removed from either end. */
  predicate Strips(s: string, r: string) {
    exists i | 0 <= i <= |s| - |r| :: s[i..i + |r|] == r && AllSpace(s[..i]) && AllSpace(s[i + |r|..])
  }

  /** `s.strip()`. */
  function Trim(s: string): (r: string)
    ensures IsTrimmed(r)
    ensures |r| <= |s|
    ensures |r| == 0 <==> AllSpace(s)
  {
    var t := TrimStart(s);
    var r := TrimEnd(t);
    assert |r| == 0 ==> |t| == 0;
    assert s[..|s|] == s;
    r
  }

  /** `strip` removes surrounding whitespace and nothing else. */
  lemma TrimStrips(s: string)
    ensures Strips(s, Trim(s))
  {
    StripsBothEnds(s, TrimStart(s), TrimEnd(TrimStart(s)));
  }

  /** Dropping whitespace from the front and then from the back strips the string. */
  lemma StripsBothEnds(s: string, t: string, r: string)
    requires |t| <= |s| && t == s[|s| - |t|..] && AllSpace(s[..|s| - |t|])
    requires |r| <= |t| && r == t[..|r|] && AllSpace(t[|r|..])
    ensures Strips(s, r)
  {
    var i := |s| - |t|;
    assert s[i..i + |r|] == r;
    assert s[i + |r|..] == t[|r|..];
  }

  /**
   * The contract of `Trim` determines it: a stripped string obtained from
   * `s` by removing surrounding whitespace, empty exactly when `s` is all
   * whitespace, is `Trim(s)`.
   */
  lemma StripUnique(s: string, r: string)
    requires IsTrimmed(r) && Strips(s, r) && (|r| == 0 <==> AllSpace(s))
    ensures r == Trim(s)
  {
    var t := Trim(s);
    if |r| > 0 {
      TrimStrips(s);
      var i := StripsAt(s, r);
      var j := StripsAt(s, t);
      StripsSame(s, r, t, i, j);
    }
  }

  /** Two non-empty stripped infixes of `s` with only whitespace around them are equal. */
  lemma StripsSame(s: string, a: string, b: string, i: nat, j: nat)
    requires |a| > 0 && IsTrimmed(a) && i + |a| <= |s| && s[i..i + |a|] == a
    requires AllSpace(s[..i]) && AllSpace(s[i + |a|..])
    requires |b| > 0 && IsTrimmed(b) && j + |b| <= |s| && s[j..j + |b|] == b
    requires AllSpace(s[..j]) && AllSpace(s[j + |b|..])
    ensures a == b
  {
    SameStart(s, a, b, i, j);
    SameStart(s, b, a, j, i);
    SameEnd(s, a, b, i, j);
    SameEnd(s, b, a, j, i);
  }

  /** Where the stripped string sits inside `s`. */
  lemma StripsAt(s: string, r: string) returns (i: nat)
    requires Strips(s, r)
    ensures i + |r| <= |s| && s[i..i + |r|] == r && AllSpace(s[..i]) && AllSpace(s[i + |r|..])
  {
    i :| 0 <= i <= |s| - |r| && s[i..i + |r|] == r && AllSpace(s[..i]) && AllSpace(s[i + |r|..]);
  }

  /** A stripped non-empty infix with only whitespace before it cannot start after another such infix. */
  lemma SameStart(s: string, a: string, b: string, i: nat, j: nat)
    requires |a| > 0 && IsTrimmed(a) && i + |a| <= |s| && s[i..i + |a|] == a
    requires j + |b| <= |s| && AllSpace(s[..j])
    ensures i >= j
  {
  }

  /** Symmetrically, it cannot end before another such infix that has only whitespace after it. */
  lemma SameEnd(s: string, a: string, b: string, i: nat, j: nat)
    requires |a| > 0 && IsTrimmed(a) && i + |a| <= |s| && s[i..i + |a|] == a
    requires j + |b| <= |s| && AllSpace(s[j + |b|..])
    ensures i + |a| <= j + |b|
  {
  }

  /** Stripping only removes characters: a string free of `seps` stays free of them. */
  lemma TrimNoneOf(s: string, seps: set<char>)
    requires NoneOf(s, seps)
    ensures NoneOf(Trim(s), seps)
  {
    TrimIsBothEnds(s);
    NoneOfSuffix(s, TrimStart(s), seps);
    NoneOfPrefix(TrimStart(s), TrimEnd(TrimStart(s)), seps);
  }

  lemma TrimIsBothEnds(s: string)
    ensures Trim(s) == TrimEnd(TrimStart(s))
  {
  }

  lemma NoneOfSuffix(s: string, t: string, seps: set<char>)
    requires NoneOf(s, seps) && |t| <= |s| && t == s[|s| - |t|..]
    ensures NoneOf(t, seps)
  {
    forall k | 0 <= k < |t|
      ensures t[k] !in seps
    {
      assert t[k] == s[|s| - |t| + k];
    }
  }

  lemma NoneOfPrefix(s: string, t: string, seps: set<char>)
    requires NoneOf(s, seps) && |t| <= |s| && t == s[..|t|]
    ensures NoneOf(t, seps)
  {
    forall k | 0 <= k < |t|
      ensures t[k] !in seps
    {
      assert t[k] == s[k];
    }
  }

  lemma {:induction false} TrimStartOfTrimmed(s: string)
    requires |s| == 0 || !IsSpace(s[0])
    ensures TrimStart(s) == s
  {
  }

  /** Stripping a string that is already stripped changes nothing. */
  lemma TrimOfTrimmed(s: string)
    requires IsTrimmed(s)
    ensures Trim(s) == s
  {
  }

  /** Whitespace appended to a stripped string is removed by `rstrip`. */
  lemma {:induction false} TrimEndPadded(x: string, pad: string)
    requires |x| == 0 || !IsSpace(x[|x| - 1])
    requires AllSpace(pad)
    ensures TrimEnd(x + pad) == x
    decreases |pad|
  {
    if |pad| > 0 {
      assert (x + pad)[..|x + pad| - 1] == x + pad[..|pad| - 1];
      TrimEndPadded(x, pad[..|pad| - 1]);
    } else {
      assert x + pad == x;
    }
  }

  /** Whitespace prepended to a string is removed by `lstrip`. */
  lemma {:induction false} TrimStartPadded(pad: string, x: string)
    requires |x| == 0 || !IsSpace(x[0])
    requires AllSpace(pad)
    ensures TrimStart(pad + x) == x
    decreases |pad|
  {
    if |pad| > 0 {
      assert (pad + x)[1..] == pad[1..] + x;
      TrimStartPadded(pad[1..], x);
    } else {
      assert pad + x == x;
    }
  }

  /** `strip` recovers a stripped string from any whitespace padding around it. */
  lemma TrimPadded(pre: string, x: string, post: string)
    requires IsTrimmed(x) && |x| > 0
    requires AllSpace(pre) && AllSpace(post)
    ensures Trim(pre + x + post) == x
  {
    assert pre + x + post == pre + (x + post);
    TrimStartPadded(pre, x + post);
    TrimEndPadded(x, post);
  }

  // ---------------------------------------------------------------------------
  // lower()
  // ---------------------------------------------------------------------------

  /** ASCII lower-casing of one character; every other character is unchanged. */
  function LowerChar(c: char): char {
    if 'A' <= c <= 'Z' then (c as int + 32) as char else c
  }

  /** `s.lower()` restricted to ASCII letters. */
  function Lower(s: string): (r: string)
    ensures |r| == |s|
    ensures forall k | 0 <= k < |s| :: r[k] == LowerChar(s[k])
  {
    seq(|s|, k requires 0 <= k < |s| => LowerChar(s[k]))
  }

  lemma LowerIdempotent(s: string)
    ensures Lower(Lower(s)) == Lower(s)
  {
  }

  // ---------------------------------------------------------------------------
  // Substring search: `p in s`, `s.find(p)`
  // ---------------------------------------------------------------------------

  predicate OccursAt(s: string, p: string, i: nat) {
    i + |p| <= |s| && s[i..i + |p|] == p
  }

  /** The first index at or after `i` where `p` occurs in `s`. */
  function IndexFrom(s: string, p: string, i: nat): (r: Option<nat>)
    requires i <= |s|
    ensures r.Some? ==> i <= r.value && OccursAt(s, p, r.value)
    ensures r.Some? ==> forall k | i <= k < r.value :: !OccursAt(s, p, k)
    ensures r.None? ==> forall k | i <= k <= |s| :: !OccursAt(s, p, k)
    decreases |s| - i
  {
    if OccursAt(s, p, i) then Some(i)
    else if i == |s| then None
    else IndexFrom(s, p, i + 1)
  }

  /** `s.find(p)`, with a missing occurrence as `None`. */
  function IndexOf(s: string, p: string): (r: Option<nat>)
    ensures r.Some? ==> OccursAt(s, p, r.value)
    ensures r.Some? ==> forall k | 0 <= k < r.value :: !OccursAt(s, p, k)
    ensures r.None? ==> forall k | 0 <= k <= |s| :: !OccursAt(s, p, k)
  {
    IndexFrom(s, p, 0)
  }

  /** `p` occurs nowhere in `s`. */
  predicate Free(s: string, p: string) {
    forall k | 0 <= k <= |s| :: !OccursAt(s, p, k)
  }

  /**
   * A two-character pattern absent from both halves is absent from their
   * concatenation unless it straddles the seam.
   */
  lemma FreeConcat2(a: string, b: string, p: string)
    requires |p| == 2
    requires Free(a, p) && Free(b, p)
    requires |a| > 0 && |b| > 0 ==> !(a[|a| - 1] == p[0] && b[0] == p[1])
    ensures Free(a + b, p)
  {
    var s := a + b;
    forall k | 0 <= k <= |s|
      ensures !OccursAt(s, p, k)
    {
      if k + 2 <= |a| {
        assert s[k..k + 2] == a[k..k + 2];
        assert !OccursAt(a, p, k);
      } else if k >= |a| && k + 2 <= |s| {
        assert s[k..k + 2] == b[k - |a|..k - |a| + 2];
        assert !OccursAt(b, p, k - |a|);
      } else if k + 2 <= |s| {
        assert k == |a| - 1;
        assert s[k..k + 2] == [a[|a| - 1], b[0]];
      }
    }
  }

  /** A string without the pattern's first character cannot contain it. */
  lemma FreeOfMissingChar(s: string, p: string)
    requires |p| > 0
    requires forall k | 0 <= k < |s| :: s[k] != p[0]
    ensures Free(s, p)
  {
    forall k | 0 <= k <= |s|
      ensures !OccursAt(s, p, k)
    {
      if k + |p| <= |s| {
        assert s[k..k + |p|][0] == s[k];
      }
    }
  }

  // ---------------------------------------------------------------------------
  // re.split on a character class, and its inverse
  // ---------------------------------------------------------------------------

  predicate NoneOf(s: string, seps: set<char>) {
    forall k | 0 <= k < |s| :: s[k] !in seps
  }

  /**
   * `re.split("[...]", s)`: the pieces between separator characters, empty
   * pieces included, so there is always at least one piece.
   */
  function Split(s: string, seps: set<char>): (r: seq<string>)
    ensures |r| >= 1
    ensures forall i | 0 <= i < |r| :: NoneOf(r[i], seps)
    decreases |s|
  {
    if |s| == 0 then [""]
    else
      var rest := Split(s[1..], seps);
      if s[0] in seps then [""] + rest
      else [[s[0]] + rest[0]] + rest[1..]
  }

  /** `sep.join(parts)`. */
  function Join(parts: seq<string>, sep: char): string {
    if |parts| == 0 then ""
    else if |parts| == 1 then parts[0]
    else parts[0] + [sep] + Join(parts[1..], sep)
  }

  lemma {:induction false} SplitOfFree(x: string, seps: set<char>)
    requires NoneOf(x, seps)
    ensures Split(x, seps) == [x]
    decreases |x|
  {
    if |x| > 0 {
      SplitOfFree(x[1..], seps);
      assert [x[0]] + x[1..] == x;
    }
  }

  lemma {:induction false} SplitFreePrefix(x: string, sep: char, y: string, seps: set<char>)
    requires NoneOf(x, seps) && sep in seps
    ensures Split(x + [sep] + y, seps) == [x] + Split(y, seps)
    decreases |x|
  {
    var s := x + [sep] + y;
    if |x| == 0 {
      assert s[1..] == y;
    } else {
      assert s[1..] == x[1..] + [sep] + y;
      SplitFreePrefix(x[1..], sep, y, seps);
      assert [x[0]] + x[1..] == x;
    }
  }

  /** Splitting a join of separator-free parts gives the parts back. */
  lemma {:induction false} SplitJoin(parts: seq<string>, sep: char, seps: set<char>)
    requires |parts| >= 1 && sep in seps
    requires forall i | 0 <= i < |parts| :: NoneOf(parts[i], seps)
    ensures Split(Join(parts, sep), seps) == parts
    decreases |parts|
  {
    if |parts| == 1 {
      SplitOfFree(parts[0], seps);
    } else {
      SplitFreePrefix(parts[0], sep, Join(parts[1..], sep), seps);
      SplitJoin(parts[1..], sep, seps);
      assert [parts[0]] + parts[1..] == parts;
    }
  }

  /** The parts with `between[i]` placed between parts `i` and `i + 1`. */
  function Interleave(parts: seq<string>, between: seq<char>): string
    requires |parts| == |between| + 1
    decreases |between|
  {
    if |between| == 0 then parts[0] else parts[0] + [between[0]] + Interleave(parts[1..], between[1..])
  }

  /** The separator characters of `s`, in order. */
  function SeparatorsIn(s: string, seps: set<char>): (r: seq<char>)
    ensures forall k | 0 <= k < |r| :: r[k] in seps
    decreases |s|
  {
    if |s| == 0 then []
    else (if s[0] in seps then [s[0]] else []) + SeparatorsIn(s[1..], seps)
  }

  /** Putting the separators back between the pieces of a split rebuilds the string. */
  lemma {:induction false} SplitRebuilds(s: string, seps: set<char>)
    ensures |Split(s, seps)| == |SeparatorsIn(s, seps)| + 1
    ensures Interleave(Split(s, seps), SeparatorsIn(s, seps)) == s
    decreases |s|
  {
    if |s| > 0 {
      SplitRebuilds(s[1..], seps);
      var rest := Split(s[1..], seps);
      var between := SeparatorsIn(s[1..], seps);
      if s[0] in seps {
        SplitRebuildsAtSeparator(s, seps, rest, between);
      } else {
        SplitRebuildsInPiece(s, seps, rest, between);
      }
    }
  }

  lemma SplitRebuildsAtSeparator(s: string, seps: set<char>, rest: seq<string>, between: seq<char>)
    requires |s| > 0 && s[0] in seps
    requires rest == Split(s[1..], seps) && between == SeparatorsIn(s[1..], seps)
    requires |rest| == |between| + 1 && Interleave(rest, between) == s[1..]
    ensures |Split(s, seps)| == |SeparatorsIn(s, seps)| + 1
    ensures Interleave(Split(s, seps), SeparatorsIn(s, seps)) == s
  {
    var parts, seps' := [""] + rest, [s[0]] + between;
    assert Split(s, seps) == parts && SeparatorsIn(s, seps) == seps';
    assert parts[1..] == rest && seps'[1..] == between;
    assert Interleave(parts, seps') == "" + [s[0]] + s[1..];
    assert "" + [s[0]] + s[1..] == s;
  }

  lemma SplitRebuildsInPiece(s: string, seps: set<char>, rest: seq<string>, between: seq<char>)
    requires |s| > 0 && s[0] !in seps
    requires rest == Split(s[1..], seps) && between == SeparatorsIn(s[1..], seps)
    requires |rest| == |between| + 1 && Interleave(rest, between) == s[1..]
    ensures |Split(s, seps)| == |SeparatorsIn(s, seps)| + 1
    ensures Interleave(Split(s, seps), SeparatorsIn(s, seps)) == s
  {
    var parts := [[s[0]] + rest[0]] + rest[1..];
    assert Split(s, seps) == parts;
    assert SeparatorsIn(s, seps) == [] + between;
    assert [] + between == between;
    InterleaveConsFirst(s[0], rest, between);
    assert [s[0]] + s[1..] == s;
  }

  /** A character put in front of the first part goes in front of the whole. */
  lemma InterleaveConsFirst(c: char, parts: seq<string>, between: seq<char>)
    requires |parts| == |between| + 1
    ensures Interleave([[c] + parts[0]] + parts[1..], between) == [c] + Interleave(parts, between)
  {
    var p := [[c] + parts[0]] + parts[1..];
    assert p[1..] == parts[1..];
  }

  /** Splitting separator-free parts interleaved with separators gives the parts back, whichever separators. */
  lemma {:induction false} SplitInterleave(parts: seq<string>, between: seq<char>, seps: set<char>)
    requires |parts| == |between| + 1
    requires forall k | 0 <= k < |between| :: between[k] in seps
    requires forall i | 0 <= i < |parts| :: NoneOf(parts[i], seps)
    ensures Split(Interleave(parts, between), seps) == parts
    decreases |between|
  {
    if |between| == 0 {
      SplitOfFree(parts[0], seps);
    } else {
      SplitFreePrefix(parts[0], between[0], Interleave(parts[1..], between[1..]), seps);
      SplitInterleave(parts[1..], between[1..], seps);
      assert [parts[0]] + parts[1..] == parts;
    }
  }

  // ---------------------------------------------------------------------------
  // str(int) and its inverse
  // ---------------------------------------------------------------------------

  predicate IsDigit(c: char) {
    '0' <= c <= '9'
  }

  function DigitChar(d: nat): (c: char)
    requires d < 10
    ensures IsDigit(c) && c as int - '0' as int == d
  {
    (d + '0' as int) as char
  }

  /** Decimal digits of `n` without leading zeros, as `str(n)` prints them. */
  function NatToString(n: nat): (r: string)
    ensures |r| > 0
    ensures forall k | 0 <= k < |r| :: IsDigit(r[k])
  {
    if n < 10 then [DigitChar(n)] else NatToString(n / 10) + [DigitChar(n % 10)]
  }

  /** `str(i)`. */
  function IntToString(i: int): string {
    if i < 0 then "-" + NatToString(-i) else NatToString(i)
  }

  /** The value of a string of decimal digits. */
  function DigitsValue(s: string): nat
    requires forall k | 0 <= k < |s| :: IsDigit(s[k])
  {
    if |s| == 0 then 0
    else
      assert IsDigit(s[|s| - 1]);
      DigitsValue(s[..|s| - 1]) * 10 + (s[|s| - 1] as int - '0' as int)
  }

  /** A decimal integer: an optional minus sign and at least one digit. */
  function ParseInt(s: string): Option<int> {
    if |s| > 0 && s[0] == '-' then
      if |s| > 1 && forall k | 1 <= k < |s| :: IsDigit(s[k]) then Some(-(DigitsValue(s[1..]) as int)) else None
    else if |s| > 0 && forall k | 0 <= k < |s| :: IsDigit(s[k]) then Some(DigitsValue(s))
    else None
  }

  lemma {:induction false} DigitsOfNat(n: nat)
    ensures DigitsValue(NatToString(n)) == n
  {
    if n >= 10 {
      var s := NatToString(n);
      assert s[..|s| - 1] == NatToString(n / 10);
      DigitsOfNat(n / 10);
    }
  }

  /** Parsing what `str(i)` prints gives back `i`. */
  lemma IntToStringRoundTrip(i: int)
    ensures ParseInt(IntToString(i)) == Some(i)
  {
    if i < 0 {
      ParseNegative(-i);
    } else {
      ParseNatural(i);
    }
  }

  lemma ParseNatural(n: nat)
    ensures ParseInt(NatToString(n)) == Some(n)
  {
    var s := NatToString(n);
    assert s[0] != '-' by {
      assert IsDigit(s[0]);
    }
    DigitsOfNat(n);
  }

  lemma ParseNegative(n: nat)
    requires n > 0
    ensures ParseInt("-" + NatToString(n)) == Some(-(n as int))
  {
    var s := "-" + NatToString(n);
    assert s[1..] == NatToString(n);
    DigitsOfNat(n);
  }
}

=== FILE: transcribe.dfy ===
/**
 * The transcription collaborator's retry policy (`OpenAITranscriber`). The
 * network client is an oracle: `client[k]` is what attempt `k` (0-based)
 * produced. Sleeping is recorded as the list of requested delays.
 */
module Transcribe {
  import opened Wrappers
  import Text
  import Wav

  const DefaultModel: string := "gpt-4o-transcribe"
  const DefaultMaxRetries: int := 2

  datatype Transcriber = Transcriber(model: string, maxRetries: nat)

  /** The constructor: a negative retry count is clamped to zero. */
  function NewTranscriber(model: string, maxRetries: int): (t: Transcriber)
    ensures t.model == model
    ensures maxRetries >= 0 ==> t.maxRetries == maxRetries
    ensures maxRetries < 0 ==> t.maxRetries == 0
  {
    Transcriber(model, if maxRetries < 0 then 0 else maxRetries)
  }

  /** The transcriber built with the constructor's defaults: the default model and two retries. */
  function DefaultTranscriber(): (t: Transcriber)
    ensures t.model == "gpt-4o-transcribe" && t.maxRetries == 2
  {
    NewTranscriber(DefaultModel, DefaultMaxRetries)
  }

  /** What one client call produced: a response (whose text may be missing) or an exception. */
  datatype Attempt = Answered(text: Option<string>) | Failed(error: string)

  /** What `transcribe_wav_bytes` returns or raises. */
  datatype Outcome = Returned(text: string) | Raised(error: string)

  function Pow2(k: nat): (p: nat)
    ensures p >= 1
  {
    if k == 0 then 1 else 2 * Pow2(k - 1)
  }

  /** The delays slept after the first `n` failed attempts: 1, 2, 4, ... seconds. */
  function Schedule(n: nat): (d: seq<real>)
    ensures |d| == n
  {
    seq(n, k requires 0 <= k < n => Pow2(k) as real)
  }

  function Sum(xs: seq<real>): real {
    if |xs| == 0 then 0.0 else Sum(xs[..|xs| - 1]) + xs[|xs| - 1]
  }

  /** The whole wait before attempt `n` is 2^n - 1 seconds. */
  lemma {:induction false} ScheduleTotal(n: nat)
    ensures Sum(Schedule(n)) == (Pow2(n) - 1) as real
  {
    if n > 0 {
      assert Schedule(n)[..n - 1] == Schedule(n - 1);
      ScheduleTotal(n - 1);
    }
  }

  /** The text a successful response yields: missing text is "", and the rest is stripped. */
  function ResponseText(text: Option<string>): (s: string)
    ensures Text.IsTrimmed(s)
    ensures text.None? ==> s == ""
    ensures text.Some? ==> Text.Strips(text.value, s) && (|s| == 0 <==> Text.AllSpace(text.value))
  {
    Text.TrimStrips(text.GetOr(""));
    Text.Trim(text.GetOr(""))
  }

  /**
   * `transcribe_wav_bytes`: empty audio returns "" without calling the client;
   * otherwise at most `maxRetries + 1` attempts, the first answer wins, the
   * wait doubles after each non-final failure, and the final failure is
   * re-raised.
   */
  method TranscribeWavBytes(t: Transcriber, wav: seq<Wav.byte>, client: seq<Attempt>)
    returns (r: Outcome, attempts: nat, delays: seq<real>)
    requires |client| > t.maxRetries
    ensures |wav| == 0 ==> r == Returned("") && attempts == 0 && delays == []
    ensures |wav| > 0 ==> 1 <= attempts <= t.maxRetries + 1 && delays == Schedule(attempts - 1)
    ensures forall k | 0 <= k < attempts - 1 :: client[k].Failed?
    ensures |wav| > 0 && r.Returned? ==>
              client[attempts - 1].Answered? && r.text == ResponseText(client[attempts - 1].text)
    ensures r.Raised? ==> attempts == t.maxRetries + 1 && client[t.maxRetries] == Failed(r.error)
    ensures |wav| > 0 ==> (r.Raised? <==> forall k | 0 <= k <= t.maxRetries :: client[k].Failed?)
  {
    if |wav| == 0 {
      return Returned(""), 0, [];
    }
    var delay := 1.0;
    delays := [];
    attempts := 0;
    var attempt: nat := 0;
    while attempt < t.maxRetries + 1
      invariant attempt <= t.maxRetries
      invariant attempts == attempt
      invariant delays == Schedule(attempt)
      invariant delay == Pow2(attempt) as real
      invariant forall k | 0 <= k < attempt :: client[k].Failed?
      decreases t.maxRetries - attempt
    {
      attempts := attempt + 1;
      var outcome := client[attempt];
      if outcome.Answered? {
        r := Returned(ResponseText(outcome.text));
        return;
      }
      if attempt < t.maxRetries {
        delays := delays + [delay];
        delay := delay * 2.0;
      } else {
        r := Raised(outcome.error);
        return;
      }
      attempt := attempt + 1;
    }
    r := Returned("");
  }
}

=== FILE: wav.dfy ===
/**
 * The audio encoder `float_to_wav_bytes`: concatenate the captured blocks,
 * clip every sample to [-1, 1], scale to signed 16-bit PCM truncating toward
 * zero, and emit a mono RIFF/WAVE container. Samples are exact reals.
 *
 * `ParseWav` is an independent reader of the canonical 44-byte RIFF layout,
 * used to state what the encoder's output means.
 */
module Wav {
  import opened Wrappers

  newtype byte = x: int | 0 <= x < 256

  const MaxU32: nat := 0xFFFF_FFFF

  /** The multiplier applied to a clipped sample. */
  const PcmScale: real := 32767.0

  // ---------------------------------------------------------------------------
  // Samples
  // ---------------------------------------------------------------------------

  /** `np.concatenate(blocks).flatten()`. */
  function Flatten(blocks: seq<seq<real>>): (r: seq<real>)
    ensures |blocks| == 0 ==> r == []
  {
    if |blocks| == 0 then [] else blocks[0] + Flatten(blocks[1..])
  }

  /** `np.clip(x, -1.0, 1.0)`. */
  function Clip(x: real): (r: real)
    ensures -1.0 <= r <= 1.0
    ensures -1.0 <= x <= 1.0 ==> r == x
    ensures x > 1.0 ==> r == 1.0
    ensures x < -1.0 ==> r == -1.0
  {
    if x < -1.0 then -1.0 else if x > 1.0 then 1.0 else x
  }

  /** Conversion of a real to an integer type, which truncates toward zero. */
  function TruncateTowardZero(x: real): (r: int)
    ensures x >= 0.0 ==> 0 <= r && r as real <= x < r as real + 1.0
    ensures x < 0.0 ==> r <= 0 && r as real - 1.0 < x <= r as real
  {
    if x >= 0.0 then x.Floor else -((-x).Floor)
  }

  /** One PCM value: clip, scale by 32767, truncate toward zero. */
  function Quantize(x: real): (v: int)
    ensures -32767 <= v <= 32767
    ensures x >= 0.0 ==> v >= 0
    ensures x <= 0.0 ==> v <= 0
    ensures x >= 1.0 ==> v == 32767
    ensures x <= -1.0 ==> v == -32767
    ensures var y := Clip(x) * PcmScale;
      (y >= 0.0 ==> v as real <= y < v as real + 1.0) && (y < 0.0 ==> v as real - 1.0 < y <= v as real)
  {
    TruncateTowardZero(Clip(x) * PcmScale)
  }

  predicate InI16(vs: seq<int>) {
    forall i | 0 <= i < |vs| :: -32768 <= vs[i] < 32768
  }

  /** The PCM values of a sample sequence, one per sample, in order. */
  function Pcm(samples: seq<real>): (vs: seq<int>)
    ensures |vs| == |samples|
    ensures forall i | 0 <= i < |vs| :: vs[i] == Quantize(samples[i])
    ensures forall i | 0 <= i < |vs| :: -32767 <= vs[i] <= 32767
  {
    seq(|samples|, i requires 0 <= i < |samples| => Quantize(samples[i]))
  }

  // ---------------------------------------------------------------------------
  // Little-endian fields
  // ---------------------------------------------------------------------------

  function LE16(v: nat): (r: seq<byte>)
    requires v < 0x1_0000
    ensures |r| == 2
  {
    [(v % 256) as byte, (v / 256) as byte]
  }

  function LE32(v: nat): (r: seq<byte>)
    requires v <= MaxU32
    ensures |r| == 4
  {
    var q1 := v / 256;
    var q2 := q1 / 256;
    var q3 := q2 / 256;
    [(v % 256) as byte, (q1 % 256) as byte, (q2 % 256) as byte, (q3 % 256) as byte]
  }

  /** A signed 16-bit value in two's complement, little-endian. */
  function S16(v: int): (r: seq<byte>)
    requires -32768 <= v < 32768
    ensures |r| == 2
  {
    LE16(if v < 0 then v + 0x1_0000 else v)
  }

  /** The bytes of an ASCII tag such as "RIFF". */
  function Tag(s: string): (r: seq<byte>)
    requires forall i | 0 <= i < |s| :: s[i] as int < 256
    ensures |r| == |s|
  {
    seq(|s|, i requires 0 <= i < |s| => s[i] as int as byte)
  }

  function ReadU16(b: seq<byte>, i: nat): nat
    requires i + 2 <= |b|
  {
    b[i] as nat + 256 * b[i + 1] as nat
  }

  function ReadU32(b: seq<byte>, i: nat): nat
    requires i + 4 <= |b|
  {
    b[i] as nat + 256 * b[i + 1] as nat + 0x1_0000 * b[i + 2] as nat + 0x100_0000 * b[i + 3] as nat
  }

  function ReadS16(b: seq<byte>, i: nat): int
    requires i + 2 <= |b|
  {
    var u := ReadU16(b, i);
    if u >= 0x8000 then u - 0x1_0000 else u
  }

  /** The bytes `t` appear in `b` starting at index `i`. */
  predicate BytesAt(b: seq<byte>, i: nat, t: seq<byte>) {
    i + |t| <= |b| && forall k | 0 <= k < |t| :: b[i + k] == t[k]
  }

  lemma ReadLE16(b: seq<byte>, i: nat, v: nat)
    requires v < 0x1_0000
    requires BytesAt(b, i, LE16(v))
    ensures ReadU16(b, i) == v
  {
    assert b[i + 0] == LE16(v)[0] && b[i + 1] == LE16(v)[1];
  }

  lemma ReadLE32(b: seq<byte>, i: nat, v: nat)
    requires v <= MaxU32
    requires BytesAt(b, i, LE32(v))
    ensures ReadU32(b, i) == v
  {
    var q1 := v / 256;
    var q2 := q1 / 256;
    var q3 := q2 / 256;
    assert b[i + 0] == LE32(v)[0] && b[i + 1] == LE32(v)[1];
    assert b[i + 2] == LE32(v)[2] && b[i + 3] == LE32(v)[3];
    assert q3 < 256;
  }

  // ---------------------------------------------------------------------------
  // The container
  // ---------------------------------------------------------------------------

  const RIFF: seq<byte> := Tag("RIFF")
  const WAVE: seq<byte> := Tag("WAVE")
  const FMT: seq<byte> := Tag("fmt ")
  const DATA: seq<byte> := Tag("data")

  /** The PCM format code of the `fmt ` chunk. */
  const FormatPcm: nat := 1

  /**
   * The 44-byte canonical header of a mono 16-bit PCM file with `dataLen`
   * bytes of sample data.
   */
  function Header(rate: nat, dataLen: nat): (h: seq<byte>)
    requires 2 * rate <= MaxU32 && 36 + dataLen <= MaxU32
    ensures |h| == 44
  {
    RIFF + (LE32(36 + dataLen) + (WAVE
    + (FMT + (LE32(16) + (LE16(FormatPcm) + (LE16(1) + (LE32(rate) + (LE32(2 * rate) + (LE16(2) + (LE16(16)
    + (DATA + LE32(dataLen))))))))))))
  }

  function PcmBytes(vs: seq<int>): (r: seq<byte>)
    requires InI16(vs)
    ensures |r| == 2 * |vs| && |r| % 2 == 0
  {
    if |vs| == 0 then [] else S16(vs[0]) + PcmBytes(vs[1..])
  }

  /** Why the container writer refuses its parameters. */
  datatype EncodeError =
    | BadFrameRate     // a frame rate of zero or less
    | FieldOverflow    // a header field that does not fit in 32 bits

  /**
   * `float_to_wav_bytes(frames, sample_rate)`. No samples at all give the
   * empty byte string before any container is written; otherwise the frame
   * rate must be positive and every size field must fit in 32 bits.
   */
  function FloatToWavBytes(blocks: seq<seq<real>>, rate: int): (r: Result<seq<byte>, EncodeError>)
    ensures r == Success([]) <==> |Flatten(blocks)| == 0
    ensures r.Failure? <==> |Flatten(blocks)| > 0 && (rate <= 0 || 2 * rate > MaxU32 || 36 + 2 * |Flatten(blocks)| > MaxU32)
    ensures r.Success? ==> |r.value| == 0 || |r.value| == 44 + 2 * |Flatten(blocks)|
  {
    var samples := Flatten(blocks);
    if |samples| == 0 then Success([])
    else if rate <= 0 then Failure(BadFrameRate)
    else if 2 * rate > MaxU32 || 36 + 2 * |samples| > MaxU32 then Failure(FieldOverflow)
    else Success(Header(rate, 2 * |samples|) + PcmBytes(Pcm(samples)))
  }

  // ---------------------------------------------------------------------------
  // Reading a container back
  // ---------------------------------------------------------------------------

  /** What a reader learns from a canonical PCM container. */
  datatype WavInfo = WavInfo(
    format: nat, channels: nat, rate: nat, byteRate: nat, blockAlign: nat, bitsPerSample: nat,
    samples: seq<int>)

  function DecodeS16s(d: seq<byte>): seq<int>
    requires |d| % 2 == 0
  {
    if |d| == 0 then [] else [ReadS16(d, 0)] + DecodeS16s(d[2..])
  }

  /** Reads the canonical layout: tags, chunk sizes consistent with the length, 16-bit samples. */
  function ParseWav(b: seq<byte>): Option<WavInfo> {
    if |b| < 44 then None
    else if !BytesAt(b, 0, RIFF) || !BytesAt(b, 8, WAVE) || !BytesAt(b, 12, FMT) || !BytesAt(b, 36, DATA) then None
    else if ReadU32(b, 16) != 16 || ReadU32(b, 4) != |b| - 8 || ReadU32(b, 40) != |b| - 44 then None
    else if (|b| - 44) % 2 != 0 then None
    else Some(WavInfo(ReadU16(b, 20), ReadU16(b, 22), ReadU32(b, 24), ReadU32(b, 28),
                      ReadU16(b, 32), ReadU16(b, 34), DecodeS16s(b[44..])))
  }

  lemma {:induction false} DecodePcmBytes(vs: seq<int>)
    requires InI16(vs)
    ensures DecodeS16s(PcmBytes(vs)) == vs
    decreases |vs|
  {
    if |vs| > 0 {
      var d := PcmBytes(vs);
      var u := if vs[0] < 0 then vs[0] + 0x1_0000 else vs[0];
      assert BytesAt(d, 0, LE16(u));
      ReadLE16(d, 0, u);
      assert d[2..] == PcmBytes(vs[1..]);
      DecodePcmBytes(vs[1..]);
    }
  }

  /** The header's fields, one slice at a time. */
  lemma HeaderLayout(rate: nat, dataLen: nat)
    requires 2 * rate <= MaxU32 && 36 + dataLen <= MaxU32
    ensures var h := Header(rate, dataLen);
      && BytesAt(h, 0, RIFF) && BytesAt(h, 4, LE32(36 + dataLen)) && BytesAt(h, 8, WAVE)
      && BytesAt(h, 12, FMT) && BytesAt(h, 16, LE32(16)) && BytesAt(h, 20, LE16(FormatPcm))
      && BytesAt(h, 22, LE16(1)) && BytesAt(h, 24, LE32(rate)) && BytesAt(h, 28, LE32(2 * rate))
      && BytesAt(h, 32, LE16(2)) && BytesAt(h, 34, LE16(16)) && BytesAt(h, 36, DATA)
      && BytesAt(h, 40, LE32(dataLen))
  {
  }

  lemma BytesAtPrefix(h: seq<byte>, d: seq<byte>, i: nat, t: seq<byte>)
    requires BytesAt(h, i, t)
    ensures BytesAt(h + d, i, t)
  {
    forall k | 0 <= k < |t|
      ensures (h + d)[i + k] == t[k]
    {
      assert h[i + k] == t[k];
    }
  }

  /** A header followed by its data reads back as the header's fields and the decoded data. */
  lemma ParseHeaderThenData(rate: nat, d: seq<byte>)
    requires 2 * rate <= MaxU32 && 36 + |d| <= MaxU32 && |d| % 2 == 0
    ensures ParseWav(Header(rate, |d|) + d)
         == Some(WavInfo(FormatPcm, 1, rate, 2 * rate, 2, 16, DecodeS16s(d)))
  {
    var n := |d|;
    var h := Header(rate, n);
    var b := h + d;
    HeaderLayout(rate, n);
    BytesAtPrefix(h, d, 0, RIFF);
    BytesAtPrefix(h, d, 8, WAVE);
    BytesAtPrefix(h, d, 12, FMT);
    BytesAtPrefix(h, d, 36, DATA);
    BytesAtPrefix(h, d, 4, LE32(36 + n));
    BytesAtPrefix(h, d, 16, LE32(16));
    BytesAtPrefix(h, d, 20, LE16(FormatPcm));
    BytesAtPrefix(h, d, 22, LE16(1));
    BytesAtPrefix(h, d, 24, LE32(rate));
    BytesAtPrefix(h, d, 28, LE32(2 * rate));
    BytesAtPrefix(h, d, 32, LE16(2));
    BytesAtPrefix(h, d, 34, LE16(16));
    BytesAtPrefix(h, d, 40, LE32(n));
    ReadLE32(b, 4, 36 + n);
    ReadLE32(b, 16, 16);
    ReadLE16(b, 20, FormatPcm);
    ReadLE16(b, 22, 1);
    ReadLE32(b, 24, rate);
    ReadLE32(b, 28, 2 * rate);
    ReadLE16(b, 32, 2);
    ReadLE16(b, 34, 16);
    ReadLE32(b, 40, n);
    assert b[44..] == d;
  }

  /**
   * The encoder's output, read back, is a mono 16-bit PCM container at the
   * requested rate holding one clipped, scaled sample per input sample, in
   * concatenated block order.
   */
  lemma EncodeThenParse(blocks: seq<seq<real>>, rate: int)
    requires FloatToWavBytes(blocks, rate).Success?
    requires |Flatten(blocks)| > 0
    ensures rate > 0
    ensures ParseWav(FloatToWavBytes(blocks, rate).value)
         == Some(WavInfo(FormatPcm, 1, rate, 2 * rate, 2, 16, Pcm(Flatten(blocks))))
  {
    var vs := Pcm(Flatten(blocks));
    EncodedLayout(blocks, rate);
    ParseOfLayout(FloatToWavBytes(blocks, rate).value, rate, vs);
  }

  /** Bytes laid out as a header followed by PCM data read back as that header's fields and those values. */
  lemma ParseOfLayout(w: seq<byte>, rate: nat, vs: seq<int>)
    requires InI16(vs) && 2 * rate <= MaxU32 && 36 + |PcmBytes(vs)| <= MaxU32
    requires w == Header(rate, |PcmBytes(vs)|) + PcmBytes(vs)
    ensures ParseWav(w) == Some(WavInfo(FormatPcm, 1, rate, 2 * rate, 2, 16, vs))
  {
    ParseHeaderThenData(rate, PcmBytes(vs));
    DecodePcmBytes(vs);
  }

  /** A successful encoding of samples is the header followed by their PCM bytes. */
  lemma EncodedLayout(blocks: seq<seq<real>>, rate: int)
    requires FloatToWavBytes(blocks, rate).Success?
    requires |Flatten(blocks)| > 0
    ensures rate > 0 && 2 * rate <= MaxU32 && 36 + |PcmBytes(Pcm(Flatten(blocks)))| <= MaxU32
    ensures FloatToWavBytes(blocks, rate).value
         == Header(rate, |PcmBytes(Pcm(Flatten(blocks)))|) + PcmBytes(Pcm(Flatten(blocks)))
  {
  }

  /** The concatenation is block order: the samples of a later block follow those of an earlier one. */
  lemma {:induction false} FlattenAppend(a: seq<seq<real>>, b: seq<seq<real>>)
    ensures Flatten(a + b) == Flatten(a) + Flatten(b)
    decreases |a|
  {
    if |a| == 0 {
      assert a + b == b;
    } else {
      assert (a + b)[1..] == a[1..] + b;
      FlattenAppend(a[1..], b);
    }
  }
}

=== FILE: wrappers.dfy ===
/** Failure-compatible wrappers shared by every module of the model. */
module Wrappers {

  /** A value that may be missing: Python's `Optional[T]`. */
  datatype Option<+T> = None | Some(value: T) {
    function GetOr(default: T): T {
      match this
      case Some(v) => v
      case None => default
    }
  }

  /** The outcome of an operation that can raise: a value or an error. */
  datatype Result<+R, +E> = Success(value: R) | Failure(error: E)
}
